=== FILE: README.md ===
# Licenser and reading-list controller, modelled in Dafny

This project models two small Go components and proves properties about them.

**The licenser** (`licenser/main.go`) enforces a two-line SPDX header at the top of source files:

```
// Copyright <YEAR> <HOLDER>
// SPDX-License-Identifier: Apache-2.0
```

The header is followed by a blank line. The licenser does four things:

- It decides from a file's final extension whether the file is checked, and which line-comment prefix (`//` or `#`) its header uses.
- It builds the header text.
- It validates the first lines of a file against the header's two patterns and the expected holder.
- It walks a tree. In check-only mode it reports the non-compliant files. In fix mode it also prepends the header.

**The reading-list service's `BookController`** (`service-go-reading-list/internal/controllers/book_controller.go`) does four things:

- It fills in a default reading status.
- It validates a book.
- It forwards the call to a repository.
- It maps the repository's sentinel errors to HTTP errors.

Modules:

- `Text`: Go's `unicode.IsSpace` and `strings.TrimSpace`, and decimal rendering (`fmt.Sprint`).
- `Lines`: `bufio.Scanner` with `ScanLines`. It splits on `\n`, drops one trailing `\r` per line, and yields no empty final token.
- `Classifier`: `filepath.Ext`, `isSourceFile` and `getCommentPrefix`.
- `Header`:
  - `shortHeader`.
  - The two regular expressions, written as explicit predicates.
  - The capture loop and the checks of `hasValidHeader`.
- `FileSystem`: a file system as a map from path to content. Two sets list the paths that cannot be opened for reading and the paths that cannot be written, so every read and write can fail.
- `Licenser`:
  - `hasValidHeader`, `prependHeader` and `process`.
  - `walk`, written as a fold over the sequence of entries the directory enumeration yields.
- `Books`: the `Book` record, the `ReadStatus` values, the two repository sentinel errors, and the `BookRepository` interface. The interface is modelled as the answers the repository gives.
- `BookController`: the controller operations and the `makeHttp*Error` constructors.

Three points about the code as written:

- `walk` returns the paths it has collected so far together with the error that stopped it. It does not discard them (`licenser/main.go:141-159`). `Licenser.Walk` does the same. It is `main` that exits on the error.
- The package-level `reCopyright` and `reSPDX` (`licenser/main.go:37-40`) accept either prefix. They are shadowed inside `hasValidHeader` and never used. The model uses the prefix-specific patterns that `hasValidHeader` builds.
- The validation message lists `ro_read` where the status is spelled `to_read`. The message is kept verbatim.

## Model

| member | source | states |
|---|---|---|
| Text.TrimSpaceEmptyIffBlank | licenser/main.go:89 | trimming a line leaves the empty string exactly when every character of the line is white space under Go's unicode.IsSpace |
| Text.DecimalString | licenser/main.go:148 | the rendering of a number is a non-empty string of ASCII digits, one digit long exactly below ten |
| Text.DecimalRoundTrip | licenser/main.go:148 | reading back the decimal rendering of a year gives the year |
| Text.FourDigitDecimal | licenser/main.go:148 | years 1000 through 9999 render as exactly four digits |
| Lines.SplitLines | licenser/main.go:83-86 | the scanner's lines hold no newline, and there are none exactly when the content is empty |
| Lines.SplitTerminatedLine | licenser/main.go:83-86 | a single newline-terminated line scans as that one line, less a trailing carriage return |
| Lines.SplitUnterminatedLine | licenser/main.go:83-86 | a non-empty last line without a newline is still one token, less a trailing carriage return |
| Lines.SplitJoinDropCR | licenser/main.go:83-86 | scanning newline-terminated lines gives back each line less one trailing carriage return, followed by the lines of whatever comes after |
| Lines.SplitLinesCons | licenser/main.go:83-86 | a newline-terminated first line is scanned as that line less one trailing carriage return, followed by the lines of the rest |
| Lines.SplitJoinRoundTrip | licenser/main.go:83-86 | scanning newline-terminated plain lines gives back exactly those lines, followed by the lines of whatever comes after |
| Classifier.Ext | licenser/main.go:45 | the extension is the suffix from the last dot of the final path element, or empty exactly when that element has no dot |
| Classifier.SourceFileExactly | licenser/main.go:44-52 | a path is checked exactly when its final extension is one of the ten listed |
| Classifier.CommentPrefix | licenser/main.go:54-66 | the prefix is `#` exactly for `.py` and `.rb`, and `//` for every other extension, known or not |
| Classifier.NoExtensionNotSource | licenser/main.go:44-66 | a path without an extension is never checked and gets `//` |
| Classifier.CaseSensitiveExample | licenser/main.go:47 | the comparison is case-sensitive: `.GO` files are skipped |
| Classifier.LastExtensionExample | licenser/main.go:45-47 | only the last extension counts (`x.go.txt` is skipped, `x.min.js` is checked) |
| Classifier.DirectoryDotExample | licenser/main.go:45 | `pkg.go/README` is skipped: the dot in its directory name is not an extension |
| Classifier.RecognisedExamples | licenser/main.go:44-66 | `.go` and `.py` files are checked, with `//` and `#` respectively |
| Header.ShortHeader | licenser/main.go:68-73 | the header ends with the license identifier and not with a newline |
| Header.ShortHeaderLines | licenser/main.go:68-73 | the header is the copyright line and the SPDX line joined by one newline, and scans as exactly those two lines |
| Header.MatchCopyright | licenser/main.go:106-109 | a match means the line is the prefix, ` Copyright `, four ASCII digits, a space, and a non-empty holder without newlines |
| Header.MatchCopyrightLine | licenser/main.go:106-109 | every such line matches, with its own year and holder as the submatches |
| Header.MatchSpdx | licenser/main.go:107-110 | the SPDX pattern matches exactly the line naming `Apache-2.0` after the prefix, and its submatch is the license identifier |
| Header.DropLeadingBlanks | licenser/main.go:88-91 | the result is the suffix left after the longest run of blank lines at the start |
| Header.Capture | licenser/main.go:83-98 | the loop captures at most three lines and skips blank lines only while nothing has been captured |
| Header.LeadingLines | licenser/main.go:83-98 | the inspected lines are the first three scanned lines after the leading blank lines |
| Header.ValidHeaderIff | licenser/main.go:100-117 | content validates exactly when three lines are captured and they are a copyright line for the holder with any four-digit year, the SPDX line, and a white-space line |
| Header.ValidLinesIff | licenser/main.go:100-117 | the checks on the captured lines accept exactly the header shape |
| Header.FewLinesNeverValid | licenser/main.go:101-103 | content that scans as fewer than three lines never validates |
| Header.EmptyHolderNeverValid | licenser/main.go:106-117 | an empty holder never validates, because `(.+)` needs a character |
| Header.LeadingLinesOfHeader | licenser/main.go:68-73 | a header followed by a blank line is captured as its two lines and an empty line, whatever follows |
| Header.HeaderLinesValid | licenser/main.go:106-117 | the copyright line for the holder with a four-digit year, the SPDX line and an empty line pass every check |
| Header.BuildThenValidate | licenser/main_test.go:46-53 | for a non-empty, single-line holder not ending in a carriage return, a built header followed by a blank line validates for that holder, for any four-digit year and any following content |
| Header.OnlyOwnHolderValidates | licenser/main_test.go:63-76 | for a four-digit year and a non-empty, single-line holder not ending in a carriage return, a built header validates for exactly that holder and no other |
| Header.WrongSecondLineRejected | licenser/main.go:110-115 | after a copyright line, any second line, LF- or CRLF-terminated, that the scanner reads as something other than the SPDX line makes validation fail |
| Header.OtherLicenseRejected | licenser/main.go:107-117 | a header whose SPDX line, LF- or CRLF-terminated, names a license identifier other than Apache-2.0 fails validation |
| Header.MissingSeparatorRejected | licenser/main.go:111-115 | a built header followed by a non-blank third line, LF- or CRLF-terminated, fails validation |
| Header.InteriorBlankRejected | licenser/main.go:88-115 | a blank line between the two header lines, LF- or CRLF-terminated, is captured as the second line and makes validation fail |
| Header.BlankSecondLineRejected | licenser/main.go:107-115 | a blank second line, less its carriage return, never matches the SPDX pattern, so validation fails |
| Header.ScanThree | licenser/main.go:83-86 | three newline-terminated lines scan as themselves, the last two less a trailing carriage return, followed by the lines of the rest |
| Header.CapturedThree | licenser/main.go:83-98 | three newline-terminated lines whose first is not blank are captured as scanned, the last two less a trailing carriage return |
| Header.LeadingBlankLinesSkipped | licenser/main.go:88-91 | blank lines before a header, LF- or CRLF-terminated, do not stop it from validating |
| Header.BlanksKeepVerdict | licenser/main.go:88-91 | leading blank lines, LF- or CRLF-terminated, do not change the verdict on what follows |
| Header.ValidAfterBlanks | licenser/main.go:88-91 | content that validates still validates after leading blank lines, LF- or CRLF-terminated |
| Header.LinesAfterBlanks | licenser/main.go:88-91 | leading blank lines, LF- or CRLF-terminated, do not change which lines are captured |
| Header.BlankWithoutCR | licenser/main.go:89 | a blank line stays blank once the scanner drops its carriage return |
| Header.NotBlankWithoutCR | licenser/main.go:89 | a line that is not blank stays not blank once the scanner drops its carriage return |
| Header.DropBlankPrefix | licenser/main.go:88-91 | dropping leading blanks removes any run of blank lines in front |
| FileSystem.ReadFile | licenser/main.go:77-80 | a read succeeds exactly for an existing readable path and returns its content; a failure names the path |
| FileSystem.WriteFile | licenser/main.go:125 | a write succeeds exactly for a writable path, replaces that file's content, and leaves every other file and both permission sets unchanged |
| Licenser.HasValidHeader | licenser/main.go:74-81 | the result is an error exactly when the file cannot be opened, and otherwise the header verdict on its content with the prefix of its extension |
| Licenser.CompliantIff | licenser/main.go:74-117 | a file is compliant exactly when it is readable and its captured lines have the header shape |
| Licenser.PrependHeader | licenser/main.go:120-126 | success means the file could be opened and written, and the new content is the header, a blank line and the original content, with nothing else changed; otherwise the open error, or the permission error of the write, is returned |
| Licenser.Process | licenser/main.go:130-139 | an error is returned exactly when the file cannot be opened or, in fix mode, a non-compliant file cannot be written; an open failure is no change and passes the open error on, a failed write is a change and passes the permission error on; without an error, changed means non-compliant; check-only mode never writes; the only write is the header prepended to a non-compliant file |
| Licenser.YearText | licenser/main.go:148 | the rendered year satisfies `\d{4}` |
| Licenser.FixRoundTrip | licenser/main_test.go:78-90 | fixing a non-compliant file writes exactly header + blank line + original; afterwards it validates, and a second process in either mode changes nothing |
| Licenser.ProcessFixLeavesCompliant | licenser/main_test.go:148-160 | for a four-digit year (1000-9999) and a non-empty, single-line holder not ending in a carriage return, a fix-mode process without error leaves the file compliant |
| Licenser.ProcessKeepsCompliance | licenser/main.go:130-139 | process never spoils a compliant file |
| Licenser.CheckOnlyReportsWithoutWriting | licenser/main_test.go:92-104 | in check-only mode a non-compliant file is reported and the file system stays byte-identical |
| Licenser.FixWrites | licenser/main.go:136-138 | in fix mode a readable, writable, non-compliant file is rewritten and reported |
| Licenser.VisitEntry | licenser/main.go:143-158 | an enumeration error is passed back without touching the tree; directories and non-source files are skipped with no change and no error; only a checked file can be reported; check-only mode writes nothing; no file appears or disappears |
| Licenser.Walk | licenser/main.go:141-159 | every reported path is a source file |
| Licenser.WalkFrame | licenser/main.go:141-159 | check-only mode writes nothing; in either mode no file appears or disappears and the permissions stay as they were |
| Licenser.WalkReportsInOrder | licenser/main.go:141-159 | the reported paths are drawn from the checked entries, in enumeration order |
| Licenser.WalkSingle | licenser/main.go:141-159 | walking one entry is the callback on it, with its path reported when it changed without error |
| Licenser.NonCompliantPaths | licenser/main.go:141-159 | the reference report for check-only mode: every path in it is a readable file that fails validation |
| Licenser.CheckOnlyReportsNonCompliant | licenser/main_test.go:162-178 | with no enumeration errors and readable files, check-only mode reports exactly the non-compliant source files, in order, without error |
| Licenser.FixReportsNonCompliant | licenser/main_test.go:115-126 | when no path is checked twice and every checked file can be read and written, fix mode reports exactly what check-only mode would have reported |
| Licenser.UnopenableFileStops | licenser/main.go:130-159 | a source file that cannot be opened stops a check-only walk with its open error, returned with the paths reported before it |
| Licenser.FailedEntryStops | licenser/main.go:143-145 | an enumeration error stops the walk with that error |
| Licenser.WalkAppend | licenser/main.go:141-159 | walking two runs of entries is walking the first, then the second on what it left, unless the first stopped with an error |
| Licenser.VisitKeepsCompliance | licenser/main.go:143-158 | the callback never spoils a compliant file |
| Licenser.WalkPreservesCompliance | licenser/main.go:141-159 | a walk in either mode keeps every compliant file compliant |
| Licenser.VisitFixLeavesCompliant | licenser/main.go:143-158 | for a four-digit year (1000-9999) and a non-empty, single-line holder not ending in a carriage return, the fix-mode callback leaves a checked file compliant unless it fails |
| Licenser.WalkFixMakesCompliant | licenser/main_test.go:115-126 | for a four-digit year (1000-9999) and a non-empty, single-line holder not ending in a carriage return, a fix-mode walk that finishes without error leaves every checked file compliant |
| Licenser.WalkWithoutErrorHadNoFailures | licenser/main.go:143-145 | a walk that finishes without error met no failed entry |
| Licenser.WalkOnCompliantTree | licenser/main.go:141-159 | on a compliant tree the walk reports nothing, writes nothing and meets no error |
| Licenser.WalkFixIdempotent | licenser/main.go:141-159 | for a four-digit year (1000-9999) and a non-empty, single-line holder not ending in a carriage return, after a fix-mode walk without error, a second walk in either mode and in any year reports nothing and writes nothing |
| Licenser.EmptyHolderFlagsEverything | licenser/main.go:100-117 | with an empty holder the reference report lists every checked path |
| Licenser.EmptyHolderReportsEverySourceFile | licenser/main.go:141-159 | with an empty holder a check-only walk reports every source file |
| Licenser.NonCompliantPathsAgree | licenser/main.go:141-159 | the reference report depends only on the verdicts for the checked paths |
| Licenser.VisitFrame | licenser/main.go:143-158 | a fix-mode callback leaves every later, distinct checked path as readable, writable and (non-)compliant as it was |
| Licenser.VerdictFrame | licenser/main.go:74-81 | rewriting one file does not change the verdict on any other |
| Licenser.AcmeExample | licenser/main.go:141-159 | fixing `a.go` holding `package main\n` for `Acme Corp` in 2025 reports it and writes the two header lines, a blank line and the original content |
| Licenser.AcmeProcess | licenser/main.go:130-139 | in fix mode, process rewrites `a.go` holding `package main\n` with the header in front and reports it |
| Licenser.AcmeHeader | licenser/main.go:68-73 | the header for `a.go`, 2025 and `Acme Corp`, written out |
| Licenser.GoFile | licenser/main.go:44-66 | `a.go` is checked and gets `//` |
| Licenser.Year2025 | licenser/main.go:148 | the year 2025 renders as `2025` |
| Licenser.AcmeCopyrightLine | licenser/main.go:68-73 | the copyright line for `//`, 2025 and `Acme Corp`, written out |
| Licenser.AcmeSpdxLine | licenser/main.go:68-73 | the SPDX line for `//`, written out |
| Licenser.ShortFileNotCompliant | licenser/main.go:101-103 | the one-line file `package main\n` of the worked example does not validate, whatever the prefix and holder |
| BookController.NotFoundError | service-go-reading-list/internal/controllers/book_controller.go:84-86 | a 404 whose message is 27 characters longer than the id (its text is stated by MessageNamesTheId) |
| BookController.ConflictError | service-go-reading-list/internal/controllers/book_controller.go:88-90 | a 409 whose message is 32 characters longer than the id (its text is stated by MessageNamesTheId) |
| BookController.InternalServerError | service-go-reading-list/internal/controllers/book_controller.go:92-94 | a 500 with a fixed message that does not pass on the repository's error |
| BookController.MessageNamesTheId | service-go-reading-list/internal/controllers/book_controller.go:84-90 | a not-found or conflict message is the fixed head `the book id [`, the id, and its fixed tail, so the id can be read back from it |
| BookController.ErrorsDistinguishIds | service-go-reading-list/internal/controllers/book_controller.go:84-90 | different ids give different not-found and conflict errors |
| BookController.SetDefaultBookFields | service-go-reading-list/internal/controllers/book_controller.go:109-113 | only an empty status changes, to `to_read`; id, title and author stay as given |
| BookController.DefaultIdempotent | service-go-reading-list/internal/controllers/book_controller.go:109-113 | defaulting twice is defaulting once |
| BookController.ValidateBook | service-go-reading-list/internal/controllers/book_controller.go:96-107 | a book passes exactly when its title is non-empty and its status is one of the three; an empty title is reported first; every failure is a 400 |
| BookController.ValidAfterDefaultIff | service-go-reading-list/internal/controllers/book_controller.go:25-29 | after defaulting, exactly the books with a title and an empty or known status pass |
| BookController.DefaultKeepsValidBook | service-go-reading-list/internal/controllers/book_controller.go:109-113 | a book that already validates is left alone by defaulting |
| BookController.AddBook | service-go-reading-list/internal/controllers/book_controller.go:25-37 | success exactly when the defaulted book validates and the repository stores it, returning the repository's book; "already exists" is a 409 naming the id; other errors are a 500; every error comes with the empty book |
| BookController.UpdateBook | service-go-reading-list/internal/controllers/book_controller.go:39-51 | as AddBook, with "not found" mapped to a 404 naming the id |
| BookController.ListBooks | service-go-reading-list/internal/controllers/book_controller.go:53-62 | a repository error is a 500 with a nil list; otherwise the list is never nil and is the repository's list, or empty when that was nil |
| BookController.MapLookup | service-go-reading-list/internal/controllers/book_controller.go:65-71 | a lookup maps "not found" to a 404 naming the requested id, other errors to a 500, and success to the repository's book |
| BookController.GetBook | service-go-reading-list/internal/controllers/book_controller.go:64-72 | success exactly when the repository finds the book, returning it unchanged; "not found" is a 404 naming the id |
| BookController.DeleteBook | service-go-reading-list/internal/controllers/book_controller.go:74-82 | success exactly when the repository deletes the book, returning it unchanged; "not found" is a 404 naming the id |
| BookController.RejectedBeforeRepository | service-go-reading-list/internal/controllers/book_controller.go:25-29 | a book that fails validation gets the same answer whatever the repository would say, so the repository is not consulted |
| BookController.AcceptedBookIsForwarded | service-go-reading-list/internal/controllers/book_controller.go:25-37 | a book with a title and an empty or known status reaches the repository with its status defaulted to `to_read` when empty and every other field as given, and the answer is the stored book |
| BookController.UntitledBookRejected | service-go-reading-list/internal/controllers/book_controller.go:25-51 | a book without a title is rejected for its title whatever its status, with the empty book, by both add and update |
| BookController.ErrorCodes | service-go-reading-list/internal/controllers/book_controller.go:25-94 | which status codes each operation can answer with |

## Left out

- `main`, flag parsing, the usage text, console output and exit codes (`licenser/main.go:17-30`, `163-236`). This is CLI plumbing around global flag state. Processing several roots one after another is left out with it.
- Operating-system I/O:
  - Open, read and write are replaced by the map-based file system.
  - Failures are abstract: a path that does not exist, or one that cannot be opened for reading or cannot be written.
  - Partial writes, file modes and deferred closes are not modelled.
- `bufio.Scanner`'s token-size limit is not modelled. Past that limit Go stops scanning silently, and the file then has fewer than three captured lines.
- `time.Now().Year()` is a parameter of the walk. It is fixed for a whole walk, while the source reads the clock once per file.
- Directory enumeration (`filepath.WalkDir`) is given as a sequence of entries. Each entry is a visited path with its directory flag, or a path whose enumeration failed.
- Go's `regexp` engine is not modelled. The two patterns are written as explicit predicates.
- Strings are sequences of Unicode code points. Go's UTF-8 byte view and invalid UTF-8 are not modelled.
- `errors.Is` on wrapped error chains: a repository error is given as the sentinel it is equivalent to, or as another error.
- The Fiber routes and handlers, JSON parsing, `config.go`, and the repository implementation are left out. The repository is modelled only by the answers it gives.
- `context.Context` is not modelled; it is passed through unused.
- Licenser.HasValidHeader: a read that fails after the file was opened is not modelled. `hasValidHeader` never consults the scanner's error (`licenser/main.go:85-98`), so Go turns such a failure into "no valid header" and carries on, where the model has only files that either fail to open or are read in full. An example is a symlink to a directory named like a source file.
- Licenser.FixRoundTrip: assumes a year of four digits (1000-9999) and a non-empty holder with no line break that does not end in a carriage return. The source states no such precondition, and the round trip fails without it.
- Header.BuildThenValidate, Header.OnlyOwnHolderValidates, Licenser.ProcessFixLeavesCompliant, Licenser.VisitFixLeavesCompliant, Licenser.WalkFixMakesCompliant, Licenser.WalkFixIdempotent: the same conditions as FixRoundTrip. With a holder ending in a carriage return, such as `X\r`, the scanner strips that character when reading the written header back, so the fixed file does not validate and every later fix-mode walk prepends another header.
- Licenser.FixReportsNonCompliant: links between paths are not modelled. The map gives every path its own content, and the lemma assumes every checked path names a different file. Through a symlink or hard link Go would fix a file under its first path and find it compliant under the second, so fix mode would report fewer paths than check-only mode.

=== FILE: book_controller.dfy ===
/** The reading-list service's BookController: it fills in defaults,
    validates, forwards to the repository and maps the repository's errors
    to HTTP errors (service-go-reading-list/internal/controllers/book_controller.go). */
module BookController {
  import opened Text
  import opened Books

  // ---------------------------------------------------------------------
  // HTTP errors
  // ---------------------------------------------------------------------

  const StatusBadRequest: int := 400
  const StatusNotFound: int := 404
  const StatusConflict: int := 409
  const StatusInternalServerError: int := 500

  /** fiber.Error: a status code and a message. */
  datatype HttpError = HttpError(code: int, message: string)

  /** What a controller operation returns: a value, and an error when it
      failed, in which case the value is the zero value. */
  datatype Response<T> = Response(value: T, err: Option<HttpError>)

  const IdMessageHead: string := "the book id ["
  const NotFoundTail: string := "] is not found"
  const ConflictTail: string := "] is already exists"

  /** makeHttpNotFoundError */
  function NotFoundError(id: string): (e: HttpError)
    ensures e.code == StatusNotFound
    ensures |e.message| == |id| + 27
  {
    HttpError(StatusNotFound, IdMessageHead + id + NotFoundTail)
  }

  /** makeHttpConflictError */
  function ConflictError(id: string): (e: HttpError)
    ensures e.code == StatusConflict
    ensures |e.message| == |id| + 32
  {
    HttpError(StatusConflict, IdMessageHead + id + ConflictTail)
  }

  /** makeHttpInternalServerError: the repository's own error is not
      passed on. */
  function InternalServerError(): (e: HttpError)
    ensures e.code == StatusInternalServerError
    ensures e.message == "internal server error"
  {
    HttpError(StatusInternalServerError, "internal server error")
  }

  const TitleRequired: HttpError := HttpError(StatusBadRequest, "book title is required")
  const StatusInvalid: HttpError :=
    HttpError(StatusBadRequest, "book status should be one of [ro_read, reading, read]")

  /** A not-found or conflict message is the fixed head, the id, and the
      fixed tail, so the id can be read back from between them. */
  lemma MessageNamesTheId(id: string)
    ensures var m := NotFoundError(id).message;
      && m[..|IdMessageHead|] == IdMessageHead
      && m[|IdMessageHead|..|m| - |NotFoundTail|] == id
      && m[|m| - |NotFoundTail|..] == NotFoundTail
    ensures var m := ConflictError(id).message;
      && m[..|IdMessageHead|] == IdMessageHead
      && m[|IdMessageHead|..|m| - |ConflictTail|] == id
      && m[|m| - |ConflictTail|..] == ConflictTail
  {
    var m := NotFoundError(id).message;
    assert m == IdMessageHead + (id + NotFoundTail);
    var c := ConflictError(id).message;
    assert c == IdMessageHead + (id + ConflictTail);
  }

  /** Different ids give different not-found and conflict errors. */
  lemma ErrorsDistinguishIds(a: string, b: string)
    requires a != b
    ensures NotFoundError(a) != NotFoundError(b)
    ensures ConflictError(a) != ConflictError(b)
  {
    MessageNamesTheId(a);
    MessageNamesTheId(b);
  }

  // ---------------------------------------------------------------------
  // Defaults and validation
  // ---------------------------------------------------------------------

  /** setDefaultBookFields: a missing status becomes "to_read"; nothing
      else is touched. */
  function SetDefaultBookFields(book: Book): (r: Book)
    ensures r.id == book.id && r.title == book.title && r.author == book.author
    ensures r.status != ""
    ensures book.status != "" ==> r.status == book.status
    ensures book.status == "" ==> r.status == ReadStatusToRead
  {
    if book.status == "" then book.(status := ReadStatusToRead) else book
  }

  /** validateBook: the title check comes first, then the status must be
      one of the three known values. */
  function ValidateBook(book: Book): (r: Option<HttpError>)
    ensures r.None? <==> book.title != "" && IsKnownStatus(book.status)
    ensures r.Some? ==> r.value.code == StatusBadRequest
    ensures book.title == "" ==> r == Some(TitleRequired)
    ensures book.title != "" && !IsKnownStatus(book.status) ==> r == Some(StatusInvalid)
  {
    if book.title == "" then Some(TitleRequired)
    else if book.status == ReadStatusToRead || book.status == ReadStatusReading || book.status == ReadStatusRead then None
    else Some(StatusInvalid)
  }

  /** A book the controller accepts: a title, and a status that is empty
      or one of the three values. */
  predicate Acceptable(book: Book) {
    book.title != "" && (book.status == "" || IsKnownStatus(book.status))
  }

  /** Defaulting is idempotent. */
  lemma DefaultIdempotent(book: Book)
    ensures SetDefaultBookFields(SetDefaultBookFields(book)) == SetDefaultBookFields(book)
  {
  }

  /** After defaulting, validation passes exactly for the acceptable books;
      in particular an empty status is never the reason for a rejection. */
  lemma ValidAfterDefaultIff(book: Book)
    ensures ValidateBook(SetDefaultBookFields(book)).None? <==> Acceptable(book)
  {
  }

  /** A book that already validates is left alone by defaulting. */
  lemma DefaultKeepsValidBook(book: Book)
    requires ValidateBook(book).None?
    ensures SetDefaultBookFields(book) == book
  {
  }

  // ---------------------------------------------------------------------
  // Operations
  // ---------------------------------------------------------------------

  /** AddBook: default, validate, store. A repository "already exists" is
      a conflict naming the book's id; any other repository error is an
      internal server error. */
  function AddBook(repo: Repository, newBook: Book): (r: Response<Book>)
    ensures var b := SetDefaultBookFields(newBook);
      && (r.err.None? <==> ValidateBook(b).None? && repo.add(b).Done?)
      && (r.err.None? ==> r.value == repo.add(b).value)
      && (r.err.Some? ==> r.value == EmptyBook)
      && (ValidateBook(b).Some? ==> r.err == ValidateBook(b))
      && (ValidateBook(b).None? && repo.add(b) == Failed(RecordAlreadyExists) ==>
            r.err == Some(ConflictError(newBook.id)))
      && (ValidateBook(b).None? && repo.add(b).Failed? && repo.add(b).error != RecordAlreadyExists ==>
            r.err == Some(InternalServerError()))
  {
    var b := SetDefaultBookFields(newBook);
    match ValidateBook(b)
    case Some(e) => Response(EmptyBook, Some(e))
    case None =>
      match repo.add(b)
      case Failed(RecordAlreadyExists) => Response(EmptyBook, Some(ConflictError(b.id)))
      case Failed(_) => Response(EmptyBook, Some(InternalServerError()))
      case Done(book) => Response(book, None)
  }

  /** UpdateBook: default, validate, update. A repository "not found" is a
      404 naming the book's id; any other repository error is a 500. */
  function UpdateBook(repo: Repository, updatedBook: Book): (r: Response<Book>)
    ensures var b := SetDefaultBookFields(updatedBook);
      && (r.err.None? <==> ValidateBook(b).None? && repo.update(b).Done?)
      && (r.err.None? ==> r.value == repo.update(b).value)
      && (r.err.Some? ==> r.value == EmptyBook)
      && (ValidateBook(b).Some? ==> r.err == ValidateBook(b))
      && (ValidateBook(b).None? && repo.update(b) == Failed(RecordNotFound) ==>
            r.err == Some(NotFoundError(updatedBook.id)))
      && (ValidateBook(b).None? && repo.update(b).Failed? && repo.update(b).error != RecordNotFound ==>
            r.err == Some(InternalServerError()))
  {
    var b := SetDefaultBookFields(updatedBook);
    match ValidateBook(b)
    case Some(e) => Response(EmptyBook, Some(e))
    case None =>
      match repo.update(b)
      case Failed(RecordNotFound) => Response(EmptyBook, Some(NotFoundError(b.id)))
      case Failed(_) => Response(EmptyBook, Some(InternalServerError()))
      case Done(book) => Response(book, None)
  }

  /** ListBooks: any repository error is a 500 with a nil list; a nil list
      from the repository becomes an empty one. */
  function ListBooks(repo: Repository): (r: Response<Option<seq<Book>>>)
    ensures r.err.None? <==> repo.list.Done?
    ensures r.err.Some? ==> r.err == Some(InternalServerError()) && r.value == None
    ensures r.err.None? ==> r.value.Some?
    ensures r.err.None? ==> r.value.value == (if repo.list.value.Some? then repo.list.value.value else [])
  {
    match repo.list
    case Failed(_) => Response(None, Some(InternalServerError()))
    case Done(books) =>
      if books.None? then Response(Some([]), None) else Response(books, None)
  }

  /** The lookups by id shared by GetBook and DeleteBook: "not found" is a
      404 naming the requested id, any other error a 500. */
  function MapLookup(reply: RepoReply<Book>, bookId: string): (r: Response<Book>)
    ensures r.err.None? <==> reply.Done?
    ensures r.err.None? ==> r.value == reply.value
    ensures r.err.Some? ==> r.value == EmptyBook
    ensures reply == Failed(RecordNotFound) ==> r.err == Some(NotFoundError(bookId))
    ensures reply.Failed? && reply.error != RecordNotFound ==> r.err == Some(InternalServerError())
  {
    match reply
    case Failed(RecordNotFound) => Response(EmptyBook, Some(NotFoundError(bookId)))
    case Failed(_) => Response(EmptyBook, Some(InternalServerError()))
    case Done(book) => Response(book, None)
  }

  /** GetBook */
  function GetBook(repo: Repository, bookId: string): (r: Response<Book>)
    ensures r.err.None? <==> repo.getById(bookId).Done?
    ensures r.err.None? ==> r.value == repo.getById(bookId).value
    ensures repo.getById(bookId) == Failed(RecordNotFound) ==> r.err == Some(NotFoundError(bookId))
  {
    MapLookup(repo.getById(bookId), bookId)
  }

  /** DeleteBook */
  function DeleteBook(repo: Repository, bookId: string): (r: Response<Book>)
    ensures r.err.None? <==> repo.deleteById(bookId).Done?
    ensures r.err.None? ==> r.value == repo.deleteById(bookId).value
    ensures repo.deleteById(bookId) == Failed(RecordNotFound) ==> r.err == Some(NotFoundError(bookId))
  {
    MapLookup(repo.deleteById(bookId), bookId)
  }

  // ---------------------------------------------------------------------
  // Properties across operations
  // ---------------------------------------------------------------------

  /** A rejected book never reaches the repository: the answer is the same
      whatever the repository would have said. */
  lemma RejectedBeforeRepository(repo1: Repository, repo2: Repository, book: Book)
    requires !Acceptable(book)
    ensures AddBook(repo1, book) == AddBook(repo2, book)
    ensures UpdateBook(repo1, book) == UpdateBook(repo2, book)
  {
    ValidAfterDefaultIff(book);
  }

  /** An acceptable book reaches the repository with its status defaulted
      and every other field as given. */
  lemma AcceptedBookIsForwarded(repo: Repository, book: Book)
    requires Acceptable(book) && repo.add(SetDefaultBookFields(book)).Done?
    ensures AddBook(repo, book) == Response(repo.add(SetDefaultBookFields(book)).value, None)
  {
    ValidAfterDefaultIff(book);
  }

  /** A book without a title is rejected for its title, whatever its
      status, and the answer carries the empty book. */
  lemma UntitledBookRejected(repo: Repository, book: Book)
    requires book.title == ""
    ensures AddBook(repo, book) == Response(EmptyBook, Some(TitleRequired))
    ensures UpdateBook(repo, book) == Response(EmptyBook, Some(TitleRequired))
  {
  }

  /** Which status codes each operation can answer with. */
  lemma ErrorCodes(repo: Repository, book: Book, bookId: string)
    ensures
      && (AddBook(repo, book).err.Some? ==> AddBook(repo, book).err.value.code in {StatusBadRequest, StatusConflict, StatusInternalServerError})
      && (UpdateBook(repo, book).err.Some? ==> UpdateBook(repo, book).err.value.code in {StatusBadRequest, StatusNotFound, StatusInternalServerError})
      && (GetBook(repo, bookId).err.Some? ==> GetBook(repo, bookId).err.value.code in {StatusNotFound, StatusInternalServerError})
      && (DeleteBook(repo, bookId).err.Some? ==> DeleteBook(repo, bookId).err.value.code in {StatusNotFound, StatusInternalServerError})
      && (ListBooks(repo).err.Some? ==> ListBooks(repo).err.value.code == StatusInternalServerError)
  {
  }
}

=== FILE: books.dfy ===
/** The reading-list service's book record, its reading statuses, and the
    repository contract the controller talks to
    (service-go-reading-list/internal/models/book.go and
    internal/repositories/errors.go). */
module Books {
  import opened Text

  /** ReadStatus is a string type; any string can be stored in it, and only
      three values are meaningful. */
  type ReadStatus = string

  const ReadStatusToRead: ReadStatus := "to_read"
  const ReadStatusReading: ReadStatus := "reading"
  const ReadStatusRead: ReadStatus := "read"

  /** The three statuses the service accepts. */
  predicate IsKnownStatus(s: ReadStatus) {
    s == ReadStatusToRead || s == ReadStatusReading || s == ReadStatusRead
  }

  datatype Book = Book(id: string, title: string, author: string, status: ReadStatus)

  /** models.Book{}: the zero value returned alongside every error. */
  const EmptyBook: Book := Book("", "", "", "")

  /** What errors.Is can tell about a repository error: one of the two
      sentinel errors, or something else. */
  datatype RepoError = RecordNotFound | RecordAlreadyExists | OtherError(message: string)

  /** The result of one repository call. */
  datatype RepoReply<T> = Done(value: T) | Failed(error: RepoError)

  /** The BookRepository interface, as the answers it gives. A list of
      `None` is Go's nil slice. */
  datatype Repository = Repository(
    add: Book -> RepoReply<Book>,
    update: Book -> RepoReply<Book>,
    list: RepoReply<Option<seq<Book>>>,
    getById: string -> RepoReply<Book>,
    deleteById: string -> RepoReply<Book>)
}

=== FILE: classifier.dfy ===
/** Which files the licenser checks, and which line-comment prefix each
    language uses (licenser/main.go, isSourceFile and getCommentPrefix). */
module Classifier {

  /** A file-name extension as filepath.Ext reports one: a dot followed by
      characters that are neither dots nor path separators. */
  predicate IsExtension(e: string) {
    |e| >= 1 && e[0] == '.' && forall k :: 1 <= k < |e| ==> e[k] != '.' && e[k] != '/'
  }

  /** The final element of `p` (after its last separator) holds no dot. */
  predicate NoDotInFinalElement(p: string) {
    forall j :: 0 <= j < |p| && p[j] == '.' ==> '/' in p[j + 1..]
  }

  /** filepath.Ext on a '/'-separated path: the suffix starting at the last
      dot of the final element, or "" when that element holds no dot. */
  function Ext(p: string): (r: string)
    ensures r != [] ==> IsExtension(r) && |r| <= |p| && r == p[|p| - |r|..]
    ensures r == [] <==> NoDotInFinalElement(p)
  {
    if p == [] then []
    else
      var c := p[|p| - 1];
      if c == '/' then []
      else if c == '.' then "."
      else
        var e := Ext(p[..|p| - 1]);
        if e == [] then [] else e + [c]
  }

  /** Extensions of files whose headers are checked. */
  const SourceExtensions: set<string> :=
    {".go", ".php", ".py", ".js", ".jsx", ".ts", ".tsx", ".bal", ".rb", ".java"}

  /** Extensions whose languages comment with '#'. */
  const HashExtensions: set<string> := {".py", ".rb"}

  const SlashPrefix: string := "//"
  const HashPrefix: string := "#"

  /** isSourceFile: the extension is one of the fixed table, compared
      case-sensitively. */
  predicate IsSourceFile(path: string) {
    Ext(path) in SourceExtensions
  }

  /** getCommentPrefix: '#' for Python and Ruby, '//' for everything else,
      including extensions outside the table. */
  function CommentPrefix(path: string): (prefix: string)
    ensures prefix == HashPrefix <==> Ext(path) in HashExtensions
    ensures prefix == SlashPrefix || prefix == HashPrefix
  {
    var ext := Ext(path);
    if ext in {".go", ".php", ".js", ".jsx", ".ts", ".tsx", ".java"} then SlashPrefix
    else if ext in {".py", ".rb"} then HashPrefix
    else if ext == ".bal" then SlashPrefix
    else SlashPrefix
  }

  /** The extension of `stem + e` is `e` whatever the stem. */
  lemma {:induction false} ExtOfSuffix(stem: string, e: string)
    requires IsExtension(e)
    ensures Ext(stem + e) == e
  {
    var p := stem + e;
    var c := p[|p| - 1];
    assert c == e[|e| - 1];
    if |e| > 1 {
      var e' := e[..|e| - 1];
      assert IsExtension(e');
      assert p[..|p| - 1] == stem + e';
      ExtOfSuffix(stem, e');
      assert c != '/' && c != '.';
      assert Ext(p) == Ext(stem + e') + [c];
      assert e' + [c] == e;
    } else {
      assert c == '.';
    }
  }

  /** A path is checked exactly when its final extension is in the table. */
  lemma SourceFileExactly(stem: string, e: string)
    requires IsExtension(e)
    ensures IsSourceFile(stem + e) <==> e in SourceExtensions
  {
    ExtOfSuffix(stem, e);
  }

  /** Paths without an extension are never checked, and get '//'. */
  lemma NoExtensionNotSource(p: string)
    requires NoDotInFinalElement(p)
    ensures !IsSourceFile(p)
    ensures CommentPrefix(p) == SlashPrefix
  {
  }

  /** Go and Python files are checked, with their own prefixes. */
  lemma RecognisedExamples()
    ensures IsSourceFile("cmd/main.go") && CommentPrefix("cmd/main.go") == SlashPrefix
    ensures IsSourceFile("tools/gen.py") && CommentPrefix("tools/gen.py") == HashPrefix
  {
    assert "cmd/main.go" == "cmd/main" + ".go";
    ExtOfSuffix("cmd/main", ".go");
    assert "tools/gen.py" == "tools/gen" + ".py";
    ExtOfSuffix("tools/gen", ".py");
  }

  /** The comparison is case-sensitive: upper-case Go files are skipped. */
  lemma CaseSensitiveExample(stem: string)
    ensures !IsSourceFile(stem + ".GO")
  {
    ExtOfSuffix(stem, ".GO");
  }

  /** Only the last extension counts: "notes.go.txt" is skipped while
      "bundle.min.js" is checked. */
  lemma LastExtensionExample(stem: string)
    ensures !IsSourceFile(stem + ".go" + ".txt")
    ensures IsSourceFile(stem + ".min" + ".js")
  {
    ExtOfSuffix(stem + ".go", ".txt");
    ExtOfSuffix(stem + ".min", ".js");
  }

  /** A dot in a directory name is not an extension of the file. */
  lemma DirectoryDotExample()
    ensures !IsSourceFile("pkg.go/README")
  {
    var p := "pkg.go/README";
    forall j | 0 <= j < |p| && p[j] == '.'
      ensures '/' in p[j + 1..]
    {
      assert p[j + 1..][6 - (j + 1)] == '/';
    }
    assert NoDotInFinalElement(p);
  }
}

=== FILE: filesystem.dfy ===
/** The part of the operating system the licenser touches: whole-file
    reads and writes by path. A file system is a map from path to content;
    the two sets stand for files the process may not open for reading or
    may not write, so that every read and write can fail. A file that
    opens is read in full: a read that fails after a successful open is
    not modelled. */
module FileSystem {

  /** Why a read or write failed. */
  datatype IoError = NotExist(path: string) | PermissionDenied(path: string)

  /** The outcome of a call that can fail with an I/O error. */
  datatype Result<T> = Ok(value: T) | Err(error: IoError)

  datatype Fs = Fs(files: map<string, string>, unreadable: set<string>, unwritable: set<string>)

  /** The file at `path` can be opened, and then is read in full. */
  predicate Readable(fs: Fs, path: string) {
    path in fs.files && path !in fs.unreadable
  }

  /** os.Open / os.ReadFile: the whole content, or why it cannot be read. */
  function ReadFile(fs: Fs, path: string): (r: Result<string>)
    ensures r.Ok? <==> Readable(fs, path)
    ensures r.Ok? ==> r.value == fs.files[path]
    ensures r.Err? ==> r.error.path == path
  {
    if path !in fs.files then Err(NotExist(path))
    else if path in fs.unreadable then Err(PermissionDenied(path))
    else Ok(fs.files[path])
  }

  /** os.WriteFile: replaces the content of `path`; every other file and
      both permission sets stay as they were. */
  function WriteFile(fs: Fs, path: string, data: string): (r: Result<Fs>)
    ensures r.Ok? <==> path !in fs.unwritable
    ensures r.Ok? ==> path in r.value.files && r.value.files[path] == data
    ensures r.Ok? ==> forall q :: q != path ==> (q in r.value.files <==> q in fs.files)
    ensures r.Ok? ==> forall q :: q != path && q in fs.files ==> r.value.files[q] == fs.files[q]
    ensures r.Ok? ==> r.value.unreadable == fs.unreadable && r.value.unwritable == fs.unwritable
    ensures r.Err? ==> r.error == PermissionDenied(path)
  {
    if path in fs.unwritable then Err(PermissionDenied(path))
    else Ok(fs.(files := fs.files[path := data]))
  }
}

=== FILE: header.dfy ===
/** The canonical two-line license header: how the licenser builds it
    (shortHeader) and how it recognises it at the top of a file
    (hasValidHeader, without the file access). */
module Header {
  import opened Text
  import opened Lines
  import opened Classifier

  /** The one license the licenser writes and accepts. */
  const LicenseId: string := "Apache-2.0"

  /** What `\d{4}` matches: exactly four ASCII digits. */
  predicate IsYearText(year: string) {
    |year| == 4 && AllDigits(year)
  }

  /** What `(.+)` matches at the end of a line: at least one character and
      no newline. */
  predicate IsHolderText(holder: string) {
    holder != [] && '\n' !in holder
  }

  /** A holder that survives a write/scan round trip unchanged: it also must
      not end with a carriage return, which the line scanner strips. */
  predicate WellFormedHolder(holder: string) {
    IsHolderText(holder) && PlainLine(holder)
  }

  /** The first header line. */
  function CopyrightLine(prefix: string, year: string, holder: string): string {
    prefix + " Copyright " + year + " " + holder
  }

  /** The second header line. */
  function SpdxLine(prefix: string): string {
    prefix + " SPDX-License-Identifier: " + LicenseId
  }

  /** shortHeader: the copyright line and the SPDX line joined by one
      newline, with no newline after the second. */
  function ShortHeader(year: string, holder: string, prefix: string): (h: string)
    ensures |h| > |LicenseId| && h[|h| - |LicenseId|..] == LicenseId
    ensures h[|h| - 1] != '\n'
  {
    prefix + " Copyright " + year + " " + holder + "\n" + prefix + " SPDX-License-Identifier: " + LicenseId
  }

  /** The copyright line holds no newline and does not end with a carriage
      return when its parts do not. */
  lemma CopyrightLinePlain(prefix: string, year: string, holder: string)
    requires '\n' !in prefix && '\n' !in year && PlainLine(holder)
    ensures PlainLine(CopyrightLine(prefix, year, holder))
  {
    var c := CopyrightLine(prefix, year, holder);
    if holder != [] {
      assert c[|c| - 1] == holder[|holder| - 1];
    }
  }

  /** The SPDX line holds no newline and ends with the license identifier. */
  lemma SpdxLinePlain(prefix: string)
    requires '\n' !in prefix
    ensures PlainLine(SpdxLine(prefix))
  {
  }

  /** The header is the copyright line and the SPDX line, in that order,
      joined by a newline. */
  lemma ShortHeaderJoin(year: string, holder: string, prefix: string)
    ensures ShortHeader(year, holder, prefix) == CopyrightLine(prefix, year, holder) + "\n" + SpdxLine(prefix)
  {
  }

  /** The header consists of exactly the two lines, whatever the caller's
      strings, provided none of them holds a newline. */
  lemma ShortHeaderLines(year: string, holder: string, prefix: string)
    requires '\n' !in prefix && '\n' !in year && PlainLine(holder)
    ensures ShortHeader(year, holder, prefix) == CopyrightLine(prefix, year, holder) + "\n" + SpdxLine(prefix)
    ensures SplitLines(ShortHeader(year, holder, prefix)) == [CopyrightLine(prefix, year, holder), SpdxLine(prefix)]
  {
    var c := CopyrightLine(prefix, year, holder);
    var s := SpdxLine(prefix);
    ShortHeaderJoin(year, holder, prefix);
    CopyrightLinePlain(prefix, year, holder);
    SpdxLinePlain(prefix);
    assert SplitLines(c + "\n" + s) == [c] + SplitLines(s) by {
      SplitLinesCons(c, s);
    }
    assert SplitLines(s) == [s] by {
      SplitUnterminatedLine(s);
    }
  }

  // ---------------------------------------------------------------------
  // The two header patterns
  // ---------------------------------------------------------------------

  /** The submatches of the copyright pattern. */
  datatype CopyrightFields = CopyrightFields(year: string, holder: string)

  /** `^{prefix} Copyright (\d{4}) (.+)$` applied to one line: the
      prefix and " Copyright " literally, four digits, one space, then a
      non-empty rest without newlines, which is the holder. */
  function MatchCopyright(line: string, prefix: string): (m: Option<CopyrightFields>)
    ensures m.Some? ==> IsYearText(m.value.year) && IsHolderText(m.value.holder)
    ensures m.Some? ==> line == CopyrightLine(prefix, m.value.year, m.value.holder)
  {
    var lead := prefix + " Copyright ";
    var n := |lead|;
    if |line| >= n + 6 && line[..n] == lead && AllDigits(line[n..n + 4]) && line[n + 4] == ' '
       && '\n' !in line[n + 5..]
    then
      var m := CopyrightFields(line[n..n + 4], line[n + 5..]);
      assert line == lead + m.year + " " + m.holder by {
        assert line == line[..n] + line[n..n + 4] + line[n + 4..n + 5] + line[n + 5..];
      }
      Some(m)
    else None
  }

  /** Every line built by CopyrightLine is matched, with its own year and
      holder as the submatches. */
  lemma MatchCopyrightLine(prefix: string, year: string, holder: string)
    requires IsYearText(year) && IsHolderText(holder)
    ensures MatchCopyright(CopyrightLine(prefix, year, holder), prefix) == Some(CopyrightFields(year, holder))
  {
    var line := CopyrightLine(prefix, year, holder);
    var lead := prefix + " Copyright ";
    var n := |lead|;
    assert line == lead + year + " " + holder;
    assert line[..n] == lead;
    assert line[n..n + 4] == year;
    assert line[n + 4] == ' ';
    assert line[n + 5..] == holder;
  }

  /** `^{prefix} SPDX-License-Identifier: (Apache-2\.0)$` applied to one
      line; the submatch is the license identifier. */
  function MatchSpdx(line: string, prefix: string): (m: Option<string>)
    ensures m.Some? <==> line == SpdxLine(prefix)
    ensures m.Some? ==> m.value == LicenseId
  {
    var lead := prefix + " SPDX-License-Identifier: ";
    if |line| >= |lead| && line[..|lead|] == lead && line[|lead|..] == "Apache-2.0"
    then
      assert line == line[..|lead|] + line[|lead|..];
      Some(line[|lead|..])
    else None
  }

  // ---------------------------------------------------------------------
  // Capturing the first three lines
  // ---------------------------------------------------------------------

  /** At most the first `n` elements. */
  function Take<T>(xs: seq<T>, n: nat): (r: seq<T>)
    ensures |r| <= n && |r| <= |xs|
  {
    if |xs| <= n then xs else xs[..n]
  }

  /** The lines left after the blank lines at the very start. */
  function DropLeadingBlanks(lines: seq<string>): (r: seq<string>)
    ensures |r| <= |lines| && r == lines[|lines| - |r|..]
    ensures r == [] || !IsBlank(r[0])
    ensures forall k :: 0 <= k < |lines| - |r| ==> IsBlank(lines[k])
  {
    if lines != [] && IsBlank(lines[0]) then DropLeadingBlanks(lines[1..]) else lines
  }

  /** The scanning loop of hasValidHeader: blank lines are skipped only
      while nothing has been captured, and scanning stops at three lines.
      `acc` is what has been captured so far. */
  function Capture(lines: seq<string>, acc: seq<string>): (r: seq<string>)
    requires |acc| < 3
    ensures r == acc + Take(if acc == [] then DropLeadingBlanks(lines) else lines, 3 - |acc|)
    decreases |lines|
  {
    if lines == [] then acc
    else if IsBlank(lines[0]) && |acc| == 0 then Capture(lines[1..], acc)
    else if |acc| + 1 == 3 then acc + [lines[0]]
    else
      var r := Capture(lines[1..], acc + [lines[0]]);
      assert lines == [lines[0]] + lines[1..];
      r
  }

  /** The lines hasValidHeader inspects: up to three, after leading blanks. */
  function LeadingLines(content: string): (r: seq<string>)
    ensures r == Take(DropLeadingBlanks(SplitLines(content)), 3)
  {
    Capture(SplitLines(content), [])
  }

  /** hasValidHeader on the content of a file, once read: three lines must
      be captured, the first must match the copyright pattern, the second
      the SPDX pattern, the third must be blank, and the submatched holder
      and license must be the expected ones. */
  predicate ValidHeaderContent(content: string, prefix: string, holder: string) {
    ValidLines(LeadingLines(content), prefix, holder)
  }

  /** The checks hasValidHeader applies to the captured lines. */
  predicate ValidLines(lines: seq<string>, prefix: string, holder: string) {
    if |lines| < 3 then false
    else
      var m1 := MatchCopyright(lines[0], prefix);
      var m2 := MatchSpdx(lines[1], prefix);
      var blank := IsBlank(lines[2]);
      if m1.None? || m2.None? || !blank then false
      else m1.value.holder == holder && m2.value == LicenseId
  }

  /** The header grammar in one statement: content is compliant exactly
      when its first three lines after leading blanks are a copyright line
      for the holder with some four-digit year, the SPDX line, and a line of
      white space. The year is never compared with anything. */
  lemma ValidHeaderIff(content: string, prefix: string, holder: string)
    ensures ValidHeaderContent(content, prefix, holder) <==> HeaderShape(LeadingLines(content), prefix, holder)
  {
    ValidLinesIff(LeadingLines(content), prefix, holder);
  }

  /** Three captured lines in the shape of a header for `holder`. */
  ghost predicate HeaderShape(lines: seq<string>, prefix: string, holder: string) {
      && |lines| == 3
      && IsHolderText(holder)
      && (exists year :: IsYearText(year) && lines[0] == CopyrightLine(prefix, year, holder))
      && lines[1] == SpdxLine(prefix)
      && IsBlank(lines[2])
  }

  /** The checks on the captured lines accept exactly the header shape. */
  lemma ValidLinesIff(lines: seq<string>, prefix: string, holder: string)
    requires |lines| <= 3
    ensures ValidLines(lines, prefix, holder) <==> HeaderShape(lines, prefix, holder)
  {
    if |lines| == 3 {
      var m1 := MatchCopyright(lines[0], prefix);
      if m1.Some? && m1.value.holder == holder {
        assert IsYearText(m1.value.year) && lines[0] == CopyrightLine(prefix, m1.value.year, holder);
      }
      if IsHolderText(holder) && exists year :: IsYearText(year) && lines[0] == CopyrightLine(prefix, year, holder) {
        var year :| IsYearText(year) && lines[0] == CopyrightLine(prefix, year, holder);
        MatchCopyrightLine(prefix, year, holder);
      }
    }
  }

  /** Content that scans as fewer than three lines never validates,
      whatever the prefix and holder. */
  lemma FewLinesNeverValid(content: string, prefix: string, holder: string)
    requires |SplitLines(content)| < 3
    ensures !ValidHeaderContent(content, prefix, holder)
  {
    var lines := SplitLines(content);
    assert |DropLeadingBlanks(lines)| <= |lines|;
    assert |LeadingLines(content)| < 3;
  }

  /** An empty holder never validates, because `(.+)` needs a character. */
  lemma EmptyHolderNeverValid(content: string, prefix: string)
    ensures !ValidHeaderContent(content, prefix, "")
  {
    ValidHeaderIff(content, prefix, "");
  }

  /** The prefixes the classifier hands out; both start with a non-space
      and hold no newline. */
  predicate CommentPrefixText(prefix: string) {
    prefix == SlashPrefix || prefix == HashPrefix
  }

  /** The first three lines of content that starts with three newline-
      terminated lines, the first of which is not blank. */
  lemma LeadingLinesOfThree(a: string, b: string, d: string, rest: string)
    requires PlainLine(a) && PlainLine(b) && PlainLine(d) && !IsBlank(a)
    ensures LeadingLines(a + "\n" + b + "\n" + d + "\n" + rest) == [a, b, d]
  {
    var content := a + "\n" + b + "\n" + d + "\n" + rest;
    JoinThree(a, b, d);
    assert content == JoinTerminated([a, b, d]) + rest;
    SplitJoinRoundTrip([a, b, d], rest);
    var lines := SplitLines(content);
    assert DropLeadingBlanks(lines) == lines;
  }

  /** A copyright line written with a classifier prefix is not blank. */
  lemma CopyrightLineNotBlank(prefix: string, year: string, holder: string)
    requires CommentPrefixText(prefix)
    ensures !IsBlank(CopyrightLine(prefix, year, holder))
  {
    assert CopyrightLine(prefix, year, holder)[0] == prefix[0];
  }

  /** The lines scanned from a header written in front of any content. */
  lemma LeadingLinesOfHeader(year: string, holder: string, prefix: string, rest: string)
    requires IsYearText(year) && WellFormedHolder(holder) && CommentPrefixText(prefix)
    ensures LeadingLines(ShortHeader(year, holder, prefix) + "\n\n" + rest) ==
      [CopyrightLine(prefix, year, holder), SpdxLine(prefix), ""]
  {
    var c := CopyrightLine(prefix, year, holder);
    var s := SpdxLine(prefix);
    ShortHeaderJoin(year, holder, prefix);
    CopyrightLinePlain(prefix, year, holder);
    CopyrightLineNotBlank(prefix, year, holder);
    SpdxLinePlain(prefix);
    assert ShortHeader(year, holder, prefix) + "\n\n" + rest == c + "\n" + s + "\n" + "" + "\n" + rest;
    LeadingLinesOfThree(c, s, "", rest);
  }

  /** Round trip: a header built by ShortHeader and followed by a blank
      line validates for its own holder, with any four-digit year, in front
      of any content. */
  lemma BuildThenValidate(year: string, holder: string, prefix: string, rest: string)
    requires IsYearText(year) && WellFormedHolder(holder) && CommentPrefixText(prefix)
    ensures ValidHeaderContent(ShortHeader(year, holder, prefix) + "\n\n" + rest, prefix, holder)
  {
    LeadingLinesOfHeader(year, holder, prefix, rest);
    HeaderLinesValid(year, holder, prefix);
  }

  /** The three lines a written header is scanned as pass every check. */
  lemma HeaderLinesValid(year: string, holder: string, prefix: string)
    requires IsYearText(year) && IsHolderText(holder)
    ensures ValidLines([CopyrightLine(prefix, year, holder), SpdxLine(prefix), ""], prefix, holder)
  {
    MatchCopyrightLine(prefix, year, holder);
  }

  /** Detection precision: a well-formed header for one holder validates
      for exactly that holder and no other. */
  lemma OnlyOwnHolderValidates(year: string, holder: string, prefix: string, rest: string, expected: string)
    requires IsYearText(year) && WellFormedHolder(holder) && CommentPrefixText(prefix)
    ensures ValidHeaderContent(ShortHeader(year, holder, prefix) + "\n\n" + rest, prefix, expected)
            <==> expected == holder
  {
    LeadingLinesOfHeader(year, holder, prefix, rest);
    MatchCopyrightLine(prefix, year, holder);
  }

  /** Detection precision: whatever line follows the copyright line,
      unless the scanner reads it as exactly the SPDX line, the file does
      not validate. A trailing carriage return is dropped before the
      comparison, so the SPDX line of a CRLF file still counts. */
  lemma WrongSecondLineRejected(year: string, holder: string, prefix: string, second: string, rest: string)
    requires IsYearText(year) && WellFormedHolder(holder) && CommentPrefixText(prefix)
    requires '\n' !in second && DropCR(second) != SpdxLine(prefix)
    ensures !ValidHeaderContent(CopyrightLine(prefix, year, holder) + "\n" + second + "\n\n" + rest, prefix, holder)
  {
    var c := CopyrightLine(prefix, year, holder);
    CopyrightLinePlain(prefix, year, holder);
    CopyrightLineNotBlank(prefix, year, holder);
    assert c + "\n" + second + "\n\n" + rest == c + "\n" + second + "\n" + "" + "\n" + rest;
    CapturedThree(c, second, "", rest);
  }

  /** Detection precision: a header naming a different license identifier
      does not validate. */
  lemma OtherLicenseRejected(year: string, holder: string, prefix: string, license: string, rest: string)
    requires IsYearText(year) && WellFormedHolder(holder) && CommentPrefixText(prefix)
    requires '\n' !in license && DropCR(license) != LicenseId
    ensures !ValidHeaderContent(CopyrightLine(prefix, year, holder) + "\n" +
                                (prefix + " SPDX-License-Identifier: " + license) + "\n\n" + rest,
                                prefix, holder)
  {
    var lead := prefix + " SPDX-License-Identifier: ";
    var second := lead + license;
    assert '\n' !in second by {
      assert '\n' !in lead;
    }
    assert DropCR(second) != SpdxLine(prefix) by {
      DropCRAfter(lead, license);
      assert (lead + DropCR(license))[|lead|..] == DropCR(license);
      assert SpdxLine(prefix)[|lead|..] == LicenseId;
    }
    WrongSecondLineRejected(year, holder, prefix, second, rest);
  }

  /** Detection precision: without the blank line after the two header
      lines the file does not validate. */
  lemma MissingSeparatorRejected(year: string, holder: string, prefix: string, next: string, rest: string)
    requires IsYearText(year) && WellFormedHolder(holder) && CommentPrefixText(prefix)
    requires '\n' !in next && !IsBlank(next)
    ensures !ValidHeaderContent(ShortHeader(year, holder, prefix) + "\n" + next + "\n" + rest, prefix, holder)
  {
    var c := CopyrightLine(prefix, year, holder);
    var s := SpdxLine(prefix);
    ShortHeaderJoin(year, holder, prefix);
    CopyrightLinePlain(prefix, year, holder);
    CopyrightLineNotBlank(prefix, year, holder);
    SpdxLinePlain(prefix);
    assert ShortHeader(year, holder, prefix) + "\n" + next + "\n" + rest == c + "\n" + s + "\n" + next + "\n" + rest;
    CapturedThree(c, s, next, rest);
    NotBlankWithoutCR(next);
  }

  /** Detection precision: a blank line between the two header lines,
      whether or not it ends in a carriage return, is captured as the
      second line and makes validation fail. */
  lemma InteriorBlankRejected(year: string, holder: string, prefix: string, blank: string, rest: string)
    requires IsYearText(year) && WellFormedHolder(holder) && CommentPrefixText(prefix)
    requires '\n' !in blank && IsBlank(blank)
    ensures !ValidHeaderContent(CopyrightLine(prefix, year, holder) + "\n" + blank + "\n" + SpdxLine(prefix) + "\n" + rest,
                                prefix, holder)
  {
    var c := CopyrightLine(prefix, year, holder);
    var s := SpdxLine(prefix);
    CopyrightLinePlain(prefix, year, holder);
    CopyrightLineNotBlank(prefix, year, holder);
    SpdxLinePlain(prefix);
    CapturedThree(c, blank, s, rest);
    BlankSecondLineRejected(c, blank, prefix, holder);
  }

  /** A blank second line is never the SPDX line. */
  lemma BlankSecondLineRejected(c: string, blank: string, prefix: string, holder: string)
    requires CommentPrefixText(prefix) && IsBlank(blank)
    ensures !ValidLines([c, DropCR(blank), SpdxLine(prefix)], prefix, holder)
  {
    BlankWithoutCR(blank);
    var s := SpdxLine(prefix);
    assert s[0] == prefix[0];
    assert DropCR(blank) != s;
  }

  /** Three newline-terminated lines, the first plain and not blank, are
      captured as scanned, the other two less a trailing carriage return. */
  lemma CapturedThree(a: string, b: string, d: string, rest: string)
    requires PlainLine(a) && !IsBlank(a) && '\n' !in b && '\n' !in d
    ensures LeadingLines(a + "\n" + b + "\n" + d + "\n" + rest) == [a, DropCR(b), DropCR(d)]
  {
    ScanThree(a, b, d, rest);
    TakeThree(a, DropCR(b), DropCR(d), SplitLines(rest));
  }

  /** Three newline-terminated lines are scanned as themselves, the last
      two less a trailing carriage return. */
  lemma ScanThree(a: string, b: string, d: string, rest: string)
    requires PlainLine(a) && '\n' !in b && '\n' !in d
    ensures SplitLines(a + "\n" + b + "\n" + d + "\n" + rest) == [a, DropCR(b), DropCR(d)] + SplitLines(rest)
  {
    JoinThree(a, b, d);
    SplitJoinDropCR([a, b, d], rest);
    assert DropCRs([a, b, d]) == [a, DropCR(b), DropCR(d)];
  }

  /** Capturing from lines whose first is not blank takes the first three. */
  lemma TakeThree(a: string, b: string, d: string, more: seq<string>)
    requires !IsBlank(a)
    ensures Take(DropLeadingBlanks([a, b, d] + more), 3) == [a, b, d]
  {
    var lines := [a, b, d] + more;
    assert lines[0] == a;
    assert lines[..3] == [a, b, d];
  }

  /** Blank lines before the header are skipped. */
  lemma LeadingBlankLinesSkipped(blanks: seq<string>, year: string, holder: string, prefix: string, rest: string)
    requires forall k :: 0 <= k < |blanks| ==> '\n' !in blanks[k] && IsBlank(blanks[k])
    requires IsYearText(year) && WellFormedHolder(holder) && CommentPrefixText(prefix)
    ensures ValidHeaderContent(JoinTerminated(blanks) + (ShortHeader(year, holder, prefix) + "\n\n" + rest), prefix, holder)
  {
    var body := ShortHeader(year, holder, prefix) + "\n\n" + rest;
    BuildThenValidate(year, holder, prefix, rest);
    ValidAfterBlanks(blanks, body, prefix, holder);
  }

  /** Content that validates still validates after leading blank lines. */
  lemma ValidAfterBlanks(blanks: seq<string>, body: string, prefix: string, holder: string)
    requires forall k :: 0 <= k < |blanks| ==> '\n' !in blanks[k] && IsBlank(blanks[k])
    requires ValidHeaderContent(body, prefix, holder)
    ensures ValidHeaderContent(JoinTerminated(blanks) + body, prefix, holder)
  {
    BlanksKeepVerdict(blanks, body, prefix, holder);
  }

  /** Leading blank lines do not change the verdict on what follows. */
  lemma BlanksKeepVerdict(blanks: seq<string>, body: string, prefix: string, holder: string)
    requires forall k :: 0 <= k < |blanks| ==> '\n' !in blanks[k] && IsBlank(blanks[k])
    ensures ValidHeaderContent(JoinTerminated(blanks) + body, prefix, holder) == ValidHeaderContent(body, prefix, holder)
  {
    LinesAfterBlanks(blanks, body);
  }

  /** Leading blank lines do not change what is captured. */
  lemma LinesAfterBlanks(blanks: seq<string>, body: string)
    requires forall k :: 0 <= k < |blanks| ==> '\n' !in blanks[k] && IsBlank(blanks[k])
    ensures LeadingLines(JoinTerminated(blanks) + body) == LeadingLines(body)
  {
    SplitJoinDropCR(blanks, body);
    var scanned := DropCRs(blanks);
    forall k | 0 <= k < |scanned| ensures IsBlank(scanned[k]) {
      BlankWithoutCR(blanks[k]);
    }
    DropBlankPrefix(scanned, SplitLines(body));
  }

  /** A blank line stays blank once the scanner drops its carriage return. */
  lemma BlankWithoutCR(line: string)
    requires IsBlank(line)
    ensures IsBlank(DropCR(line))
  {
    if line != [] && line[|line| - 1] == '\r' {
      var d := DropCR(line);
      assert forall k :: 0 <= k < |d| ==> d[k] == line[k];
    }
  }

  /** A line that is not blank stays not blank once the scanner drops its
      carriage return, since a carriage return is itself white space. */
  lemma NotBlankWithoutCR(line: string)
    requires !IsBlank(line)
    ensures !IsBlank(DropCR(line))
  {
    if line != [] && line[|line| - 1] == '\r' {
      var d := DropCR(line);
      var k :| 0 <= k < |line| && !IsSpace(line[k]);
      assert k < |d| && d[k] == line[k];
    }
  }

  /** Dropping leading blanks removes any run of blank lines in front. */
  lemma {:induction false} DropBlankPrefix(blanks: seq<string>, lines: seq<string>)
    requires forall k :: 0 <= k < |blanks| ==> IsBlank(blanks[k])
    ensures DropLeadingBlanks(blanks + lines) == DropLeadingBlanks(lines)
  {
    if blanks != [] {
      var all := blanks + lines;
      assert all[0] == blanks[0] && IsBlank(blanks[0]);
      assert all[1..] == blanks[1..] + lines;
      DropBlankPrefix(blanks[1..], lines);
      assert DropLeadingBlanks(all) == DropLeadingBlanks(all[1..]);
    } else {
      assert blanks + lines == lines;
    }
  }
}

=== FILE: licenser.dfy ===
/** The licenser's per-file decision (hasValidHeader, prependHeader,
    process) and the tree walk that folds it over the enumerated entries
    (walk), on the map-based file system. */
module Licenser {
  import opened Text
  import opened Lines
  import opened Classifier
  import opened Header
  import opened FileSystem

  // ---------------------------------------------------------------------
  // One file
  // ---------------------------------------------------------------------

  /** hasValidHeader: open and scan the file, then apply the header checks
      with the comment prefix of its extension. Failing to open is an
      error, not a verdict. */
  function HasValidHeader(fs: Fs, path: string, holder: string): (r: Result<bool>)
    ensures r.Err? <==> !Readable(fs, path)
    ensures r.Ok? ==> (r.value <==> ValidHeaderContent(fs.files[path], CommentPrefix(path), holder))
  {
    var prefix := CommentPrefix(path);
    match ReadFile(fs, path)
    case Err(e) => Err(e)
    case Ok(content) => Ok(ValidHeaderContent(content, prefix, holder))
  }

  /** The file at `path` carries a valid header for `holder`. */
  predicate Compliant(fs: Fs, path: string, holder: string) {
    HasValidHeader(fs, path, holder) == Ok(true)
  }

  /** Compliance is the header grammar applied to the file's first lines. */
  lemma CompliantIff(fs: Fs, path: string, holder: string)
    ensures Compliant(fs, path, holder) <==>
      Readable(fs, path) && HeaderShape(LeadingLines(fs.files[path]), CommentPrefix(path), holder)
  {
    if Readable(fs, path) {
      ValidHeaderIff(fs.files[path], CommentPrefix(path), holder);
    }
  }

  /** The header content written in front of the original bytes. */
  function Prepended(header: string, content: string): string {
    header + "\n\n" + content
  }

  /** prependHeader: read the file again and write back the header, a
      blank line and the original content. */
  function PrependHeader(fs: Fs, path: string, header: string): (r: Result<Fs>)
    ensures r.Ok? <==> Readable(fs, path) && path !in fs.unwritable
    ensures r.Ok? ==> r.value == fs.(files := fs.files[path := Prepended(header, fs.files[path])])
    ensures !Readable(fs, path) ==> r == Err(ReadFile(fs, path).error)
    ensures Readable(fs, path) && path in fs.unwritable ==> r == Err(PermissionDenied(path))
  {
    match ReadFile(fs, path)
    case Err(e) => Err(e)
    case Ok(src) => WriteFile(fs, path, Prepended(header, src))
  }

  /** What process returns, together with the file system afterwards. */
  datatype Outcome = Outcome(changed: bool, fs: Fs, err: Option<IoError>)

  /** process: a compliant or unreadable file reports no change; a
      non-compliant one is reported, and in fix mode rewritten. */
  function Process(fs: Fs, path: string, header: string, holder: string, fix: bool): (r: Outcome)
    // an error comes from opening the file, or from the write in fix mode
    ensures r.err.Some? <==>
      !Readable(fs, path) || (fix && HasValidHeader(fs, path, holder) == Ok(false) && path in fs.unwritable)
    // a file that cannot be opened is not a change, and its error is passed on
    ensures !Readable(fs, path) ==> r == Outcome(false, fs, Some(ReadFile(fs, path).error))
    // a failed write is a change, and its error is passed on
    ensures fix && HasValidHeader(fs, path, holder) == Ok(false) && path in fs.unwritable ==>
      r == Outcome(true, fs, Some(PermissionDenied(path)))
    // a validation error is never a change; a write error is
    ensures r.err.Some? ==> (r.changed <==> Readable(fs, path))
    // without an error, "changed" means "was not compliant"
    ensures r.err.None? ==> (r.changed <==> HasValidHeader(fs, path, holder) == Ok(false))
    // check-only mode never writes
    ensures !fix ==> r.fs == fs
    // the only write is the header prepended to a non-compliant file
    ensures r.fs != fs ==>
      && fix && r.changed && r.err.None?
      && HasValidHeader(fs, path, holder) == Ok(false)
      && r.fs == fs.(files := fs.files[path := Prepended(header, fs.files[path])])
  {
    match HasValidHeader(fs, path, holder)
    case Err(e) => Outcome(false, fs, Some(e))
    case Ok(ok) =>
      if ok then Outcome(false, fs, None)
      else if !fix then Outcome(true, fs, None)
      else
        match PrependHeader(fs, path, header)
        case Err(e) => Outcome(true, fs, Some(e))
        case Ok(fs') => Outcome(true, fs', None)
  }

  /** The header walk builds for a file: the year rendered in decimal, the
      holder, and the prefix of the file's extension. */
  function ExpectedHeader(year: nat, holder: string, path: string): string {
    ShortHeader(DecimalString(year), holder, CommentPrefix(path))
  }

  /** The conditions under which a fixed file validates: a year of four
      digits and a holder the header grammar can carry. */
  predicate FixableSettings(year: nat, holder: string) {
    1000 <= year <= 9999 && WellFormedHolder(holder)
  }

  /** The rendered year satisfies the copyright pattern's `\d{4}`. */
  lemma YearText(year: nat)
    requires 1000 <= year <= 9999
    ensures IsYearText(DecimalString(year))
  {
    FourDigitDecimal(year);
  }

  /** Fix round trip: fixing a non-compliant file writes exactly the header,
      a blank line and the original content; afterwards the file is
      compliant and a second process, in either mode, changes nothing. */
  lemma FixRoundTrip(fs: Fs, path: string, holder: string, year: nat, fix2: bool)
    requires FixableSettings(year, holder)
    requires Readable(fs, path) && path !in fs.unwritable
    requires HasValidHeader(fs, path, holder) == Ok(false)
    ensures var header := ExpectedHeader(year, holder, path);
      var r := Process(fs, path, header, holder, true);
      && r.changed && r.err.None?
      && r.fs.files[path] == Prepended(header, fs.files[path])
      && Compliant(r.fs, path, holder)
      && Process(r.fs, path, header, holder, fix2) == Outcome(false, r.fs, None)
  {
    var header := ExpectedHeader(year, holder, path);
    YearText(year);
    BuildThenValidate(DecimalString(year), holder, CommentPrefix(path), fs.files[path]);
  }

  /** After a successful fix-mode process with the walk's header the file
      is compliant, whether or not it was rewritten. */
  lemma ProcessFixLeavesCompliant(fs: Fs, path: string, holder: string, year: nat)
    requires FixableSettings(year, holder)
    requires Process(fs, path, ExpectedHeader(year, holder, path), holder, true).err.None?
    ensures Compliant(Process(fs, path, ExpectedHeader(year, holder, path), holder, true).fs, path, holder)
  {
    if !Compliant(fs, path, holder) {
      FixRoundTrip(fs, path, holder, year, false);
    }
  }

  /** process never spoils a compliant file, the one it is given or any
      other. */
  lemma ProcessKeepsCompliance(fs: Fs, path: string, header: string, holder: string, fix: bool, other: string)
    requires Compliant(fs, other, holder)
    ensures Compliant(Process(fs, path, header, holder, fix).fs, other, holder)
  {
    var r := Process(fs, path, header, holder, fix);
    if r.fs != fs {
      assert other != path;
      assert r.fs.files[other] == fs.files[other];
    }
  }

  /** Check-only mode on a non-compliant file reports it and leaves every
      byte of the file system as it was. */
  lemma CheckOnlyReportsWithoutWriting(fs: Fs, path: string, header: string, holder: string)
    requires HasValidHeader(fs, path, holder) == Ok(false)
    ensures Process(fs, path, header, holder, false) == Outcome(true, fs, None)
  {
  }

  // ---------------------------------------------------------------------
  // The walk
  // ---------------------------------------------------------------------

  /** One entry of the directory enumeration: a visited path, or a path the
      enumeration could not read (its callback receives the error). */
  datatype Entry = Visit(path: string, isDir: bool) | Failed(path: string, error: IoError)

  /** What walk returns: the reported paths, in enumeration order, the file
      system afterwards, and the error that stopped the walk, if any. */
  datatype WalkResult = WalkResult(changed: seq<string>, fs: Fs, err: Option<IoError>)

  /** An entry that walk hands to process. */
  predicate Checked(e: Entry) {
    e.Visit? && !e.isDir && IsSourceFile(e.path)
  }

  /** The paths of the checked entries, in enumeration order. */
  function CheckedPaths(entries: seq<Entry>): (r: seq<string>)
    ensures forall i :: 0 <= i < |r| ==> IsSourceFile(r[i])
  {
    if entries == [] then []
    else (if Checked(entries[0]) then [entries[0].path] else []) + CheckedPaths(entries[1..])
  }

  /** `xs` is `ys` with some elements left out, the rest in order. */
  predicate IsSubsequence<T(==)>(xs: seq<T>, ys: seq<T>)
    decreases |ys|
  {
    xs == [] ||
    (ys != [] && ((xs[0] == ys[0] && IsSubsequence(xs[1..], ys[1..])) || IsSubsequence(xs, ys[1..])))
  }

  /** Concatenation is associative. */
  lemma AppendAssoc<T>(xs: seq<T>, ys: seq<T>, zs: seq<T>)
    ensures xs + (ys + zs) == (xs + ys) + zs
  {
  }

  /** Prepending an element to the longer sequence keeps a subsequence. */
  lemma SubsequenceSkip<T>(xs: seq<T>, y: T, ys: seq<T>)
    requires IsSubsequence(xs, ys)
    ensures IsSubsequence(xs, [y] + ys)
  {
    assert ([y] + ys)[1..] == ys;
  }

  /** Prepending the same element to both keeps a subsequence. */
  lemma SubsequenceCons<T>(x: T, xs: seq<T>, ys: seq<T>)
    requires IsSubsequence(xs, ys)
    ensures IsSubsequence([x] + xs, [x] + ys)
  {
    assert ([x] + xs)[1..] == xs;
    assert ([x] + ys)[1..] == ys;
  }

  /** The paths of `entries` are those of its first entry, when checked,
      followed by those of the rest. */
  lemma CheckedPathsCons(entries: seq<Entry>)
    requires entries != []
    ensures Checked(entries[0]) ==> CheckedPaths(entries) == [entries[0].path] + CheckedPaths(entries[1..])
    ensures !Checked(entries[0]) ==> CheckedPaths(entries) == CheckedPaths(entries[1..])
  {
  }

  /** The callback walk hands to the directory enumeration, applied to one
      entry: an enumeration error is passed back; directories and files of
      other types are skipped; every other file goes through process with
      the header for its extension. */
  function VisitEntry(fs: Fs, e: Entry, holder: string, fix: bool, year: nat): (o: Outcome)
    ensures e.Failed? ==> o.err == Some(e.error) && o.fs == fs
    ensures e.Visit? && !Checked(e) ==> o == Outcome(false, fs, None)
    ensures o.changed ==> Checked(e)
    ensures !fix ==> o.fs == fs
    ensures o.fs.unreadable == fs.unreadable && o.fs.unwritable == fs.unwritable
    ensures o.fs.files.Keys == fs.files.Keys
  {
    match e
    case Failed(_, err) => Outcome(false, fs, Some(err))
    case Visit(p, isDir) =>
      if isDir || !IsSourceFile(p) then Outcome(false, fs, None)
      else Process(fs, p, ExpectedHeader(year, holder, p), holder, fix)
  }

  /** walk: a fold of the callback over the entries. A callback error stops
      the walk, and the paths collected so far are returned with it;
      otherwise a path is collected when process reports a change. */
  function Walk(fs: Fs, entries: seq<Entry>, holder: string, fix: bool, year: nat): (r: WalkResult)
    ensures AllSourceFiles(r.changed)
    decreases |entries|
  {
    if entries == [] then WalkResult([], fs, None)
    else
      var e := entries[0];
      var o := VisitEntry(fs, e, holder, fix, year);
      if o.err.Some? then WalkResult([], o.fs, o.err)
      else
        var rest := Walk(o.fs, entries[1..], holder, fix, year);
        var head := if o.changed then [e.path] else [];
        AllSourceFilesAppend(head, rest.changed);
        WalkResult(head + rest.changed, rest.fs, rest.err)
  }

  /** Paths that are all source files, concatenated. */
  predicate AllSourceFiles(paths: seq<string>) {
    forall i :: 0 <= i < |paths| ==> IsSourceFile(paths[i])
  }

  lemma AllSourceFilesAppend(xs: seq<string>, ys: seq<string>)
    requires AllSourceFiles(xs) && AllSourceFiles(ys)
    ensures AllSourceFiles(xs + ys)
  {
  }

  /** Check-only mode writes nothing; in either mode no file appears or
      disappears and the permissions stay as they were. */
  lemma {:induction false} WalkFrame(fs: Fs, entries: seq<Entry>, holder: string, fix: bool, year: nat)
    ensures var r := Walk(fs, entries, holder, fix, year);
      && (!fix ==> r.fs == fs)
      && r.fs.unreadable == fs.unreadable && r.fs.unwritable == fs.unwritable
      && r.fs.files.Keys == fs.files.Keys
    decreases |entries|
  {
    if entries != [] {
      var o := VisitEntry(fs, entries[0], holder, fix, year);
      if o.err.None? {
        WalkFrame(o.fs, entries[1..], holder, fix, year);
      }
    }
  }

  /** The reported paths are checked paths, in enumeration order: walk
      never reports a directory, a file of another type, or a path
      more often than it was enumerated. */
  lemma {:induction false} WalkReportsInOrder(fs: Fs, entries: seq<Entry>, holder: string, fix: bool, year: nat)
    ensures IsSubsequence(Walk(fs, entries, holder, fix, year).changed, CheckedPaths(entries))
    decreases |entries|
  {
    if entries != [] {
      var e := entries[0];
      var tail := entries[1..];
      var o := VisitEntry(fs, e, holder, fix, year);
      if o.err.None? {
        var rest := Walk(o.fs, tail, holder, fix, year);
        var head := if o.changed then [e.path] else [];
        assert Walk(fs, entries, holder, fix, year).changed == head + rest.changed;
        WalkReportsInOrder(o.fs, tail, holder, fix, year);
        CheckedPathsCons(entries);
        if o.changed {
          SubsequenceCons(e.path, rest.changed, CheckedPaths(tail));
        } else {
          assert head + rest.changed == rest.changed;
          if Checked(e) {
            SubsequenceSkip(rest.changed, e.path, CheckedPaths(tail));
          }
        }
      }
    }
  }

  /** The reference for check-only mode: the checked paths whose files are
      not compliant, in enumeration order. */
  function NonCompliantPaths(fs: Fs, entries: seq<Entry>, holder: string): (r: seq<string>)
    ensures AllNonCompliant(fs, r, holder)
  {
    if entries == [] then []
    else
      var e := entries[0];
      var head := if Checked(e) && HasValidHeader(fs, e.path, holder) == Ok(false) then [e.path] else [];
      var rest := NonCompliantPaths(fs, entries[1..], holder);
      AllNonCompliantAppend(fs, head, rest, holder);
      head + rest
  }

  /** Every listed path is a readable file that fails validation. */
  predicate AllNonCompliant(fs: Fs, paths: seq<string>, holder: string) {
    forall i :: 0 <= i < |paths| ==> HasValidHeader(fs, paths[i], holder) == Ok(false)
  }

  lemma AllNonCompliantAppend(fs: Fs, xs: seq<string>, ys: seq<string>, holder: string)
    requires AllNonCompliant(fs, xs, holder) && AllNonCompliant(fs, ys, holder)
    ensures AllNonCompliant(fs, xs + ys, holder)
  {
  }

  /** The enumeration reported no error. */
  predicate NoFailures(entries: seq<Entry>) {
    forall i :: 0 <= i < |entries| ==> entries[i].Visit?
  }

  /** Every file walk would check can be read. */
  predicate CheckedReadable(fs: Fs, entries: seq<Entry>) {
    forall i :: 0 <= i < |entries| && Checked(entries[i]) ==> Readable(fs, entries[i].path)
  }

  /** Check-only mode reports exactly the non-compliant source files, in
      enumeration order, and writes nothing. */
  lemma {:induction false} CheckOnlyReportsNonCompliant(fs: Fs, entries: seq<Entry>, holder: string, year: nat)
    requires NoFailures(entries) && CheckedReadable(fs, entries)
    ensures Walk(fs, entries, holder, false, year) == WalkResult(NonCompliantPaths(fs, entries, holder), fs, None)
    decreases |entries|
  {
    if entries != [] {
      var e := entries[0];
      var tail := entries[1..];
      assert NoFailures(tail) && CheckedReadable(fs, tail) by {
        forall i | 0 <= i < |tail| ensures tail[i] == entries[i + 1] { }
      }
      assert e.Visit? && (Checked(e) ==> Readable(fs, e.path));
      var o := VisitEntry(fs, e, holder, false, year);
      assert o.err.None? && o.fs == fs;
      assert o.changed <==> Checked(e) && HasValidHeader(fs, e.path, holder) == Ok(false);
      CheckOnlyReportsNonCompliant(fs, tail, holder, year);
    }
  }

  /** The first failed entry stops the walk. */
  lemma FailedEntryStops(fs: Fs, path: string, e: IoError, rest: seq<Entry>, holder: string, fix: bool, year: nat)
    ensures Walk(fs, [Failed(path, e)] + rest, holder, fix, year) == WalkResult([], fs, Some(e))
  {
  }

  /** A source file that cannot be opened stops a check-only walk with its
      error; the paths reported before it are returned with the error. */
  lemma UnopenableFileStops(fs: Fs, a: seq<Entry>, p: string, b: seq<Entry>, holder: string, year: nat)
    requires NoFailures(a) && CheckedReadable(fs, a)
    requires IsSourceFile(p) && !Readable(fs, p)
    ensures Walk(fs, a + [Visit(p, false)] + b, holder, false, year) ==
      WalkResult(NonCompliantPaths(fs, a, holder), fs, Some(ReadFile(fs, p).error))
  {
    var tail := [Visit(p, false)] + b;
    assert a + [Visit(p, false)] + b == a + tail;
    CheckOnlyReportsNonCompliant(fs, a, holder, year);
    WalkAppend(fs, a, tail, holder, false, year);
    assert tail[0] == Visit(p, false) && tail[1..] == b;
    var rb := Walk(fs, tail, holder, false, year);
    assert rb == WalkResult([], fs, Some(ReadFile(fs, p).error));
    assert NonCompliantPaths(fs, a, holder) + [] == NonCompliantPaths(fs, a, holder);
  }

  /** Walking `a + b` walks `a`, and then, unless `a` stopped with an
      error, walks `b` on the file system `a` left behind, concatenating
      the reports. */
  lemma {:induction false} WalkAppend(fs: Fs, a: seq<Entry>, b: seq<Entry>, holder: string, fix: bool, year: nat)
    ensures var ra := Walk(fs, a, holder, fix, year);
      var rb := Walk(ra.fs, b, holder, fix, year);
      Walk(fs, a + b, holder, fix, year) ==
        if ra.err.Some? then ra else WalkResult(ra.changed + rb.changed, rb.fs, rb.err)
    decreases |a|
  {
    if a == [] {
      assert a + b == b;
    } else {
      var ab := a + b;
      assert ab[0] == a[0];
      assert ab[1..] == a[1..] + b;
      var o := VisitEntry(fs, a[0], holder, fix, year);
      if o.err.None? {
        WalkAppend(o.fs, a[1..], b, holder, fix, year);
        var ra' := Walk(o.fs, a[1..], holder, fix, year);
        var rb := Walk(ra'.fs, b, holder, fix, year);
        var head: seq<string> := if o.changed then [a[0].path] else [];
        assert Walk(fs, a, holder, fix, year) == WalkResult(head + ra'.changed, ra'.fs, ra'.err);
        AppendAssoc(head, ra'.changed, rb.changed);
      }
    }
  }

  /** The callback never spoils a compliant file. */
  lemma VisitKeepsCompliance(fs: Fs, e: Entry, holder: string, fix: bool, year: nat, q: string)
    requires Compliant(fs, q, holder)
    ensures Compliant(VisitEntry(fs, e, holder, fix, year).fs, q, holder)
  {
    if Checked(e) {
      ProcessKeepsCompliance(fs, e.path, ExpectedHeader(year, holder, e.path), holder, fix, q);
    }
  }

  /** A walk in either mode keeps every compliant file compliant. */
  lemma {:induction false} WalkPreservesCompliance(fs: Fs, entries: seq<Entry>, holder: string, fix: bool, year: nat, q: string)
    requires Compliant(fs, q, holder)
    ensures Compliant(Walk(fs, entries, holder, fix, year).fs, q, holder)
    decreases |entries|
  {
    if entries != [] {
      var o := VisitEntry(fs, entries[0], holder, fix, year);
      VisitKeepsCompliance(fs, entries[0], holder, fix, year, q);
      if o.err.None? {
        WalkPreservesCompliance(o.fs, entries[1..], holder, fix, year, q);
      }
    }
  }

  /** In fix mode, the callback leaves a checked file compliant unless it
      fails. */
  lemma VisitFixLeavesCompliant(fs: Fs, e: Entry, holder: string, year: nat)
    requires FixableSettings(year, holder) && Checked(e)
    requires VisitEntry(fs, e, holder, true, year).err.None?
    ensures Compliant(VisitEntry(fs, e, holder, true, year).fs, e.path, holder)
  {
    ProcessFixLeavesCompliant(fs, e.path, holder, year);
  }

  /** A fix-mode walk that ends without error leaves every file it checked
      compliant. */
  lemma {:induction false} WalkFixMakesCompliant(fs: Fs, entries: seq<Entry>, holder: string, year: nat)
    requires FixableSettings(year, holder)
    requires Walk(fs, entries, holder, true, year).err.None?
    ensures var r := Walk(fs, entries, holder, true, year);
      forall i :: 0 <= i < |entries| && Checked(entries[i]) ==> Compliant(r.fs, entries[i].path, holder)
    decreases |entries|
  {
    if entries != [] {
      var e := entries[0];
      var tail := entries[1..];
      var o := VisitEntry(fs, e, holder, true, year);
      assert o.err.None?;
      var r := Walk(o.fs, tail, holder, true, year);
      assert Walk(fs, entries, holder, true, year).fs == r.fs;
      WalkFixMakesCompliant(o.fs, tail, holder, year);
      if Checked(e) {
        VisitFixLeavesCompliant(fs, e, holder, year);
        WalkPreservesCompliance(o.fs, tail, holder, true, year, e.path);
      }
      forall i | 0 <= i < |entries| && Checked(entries[i])
        ensures Compliant(r.fs, entries[i].path, holder)
      {
        if i > 0 {
          assert entries[i] == tail[i - 1];
        }
      }
    }
  }

  /** A walk that ends without error met no failed entry. */
  lemma {:induction false} WalkWithoutErrorHadNoFailures(fs: Fs, entries: seq<Entry>, holder: string, fix: bool, year: nat)
    requires Walk(fs, entries, holder, fix, year).err.None?
    ensures NoFailures(entries)
    decreases |entries|
  {
    if entries != [] {
      var o := VisitEntry(fs, entries[0], holder, fix, year);
      assert o.err.None? && entries[0].Visit?;
      WalkWithoutErrorHadNoFailures(o.fs, entries[1..], holder, fix, year);
      forall i | 0 <= i < |entries| ensures entries[i].Visit? {
        if i > 0 {
          assert entries[i] == entries[1..][i - 1];
        }
      }
    }
  }

  /** On a tree whose checked files are all compliant, walk reports nothing,
      writes nothing and meets no error. */
  lemma {:induction false} WalkOnCompliantTree(fs: Fs, entries: seq<Entry>, holder: string, fix: bool, year: nat)
    requires NoFailures(entries)
    requires forall i :: 0 <= i < |entries| && Checked(entries[i]) ==> Compliant(fs, entries[i].path, holder)
    ensures Walk(fs, entries, holder, fix, year) == WalkResult([], fs, None)
    decreases |entries|
  {
    if entries != [] {
      var e := entries[0];
      var tail := entries[1..];
      assert e.Visit? && (Checked(e) ==> Compliant(fs, e.path, holder));
      assert VisitEntry(fs, e, holder, fix, year) == Outcome(false, fs, None);
      forall i | 0 <= i < |tail| && Checked(tail[i]) ensures Compliant(fs, tail[i].path, holder) {
        assert tail[i] == entries[i + 1];
      }
      assert NoFailures(tail) by {
        forall i | 0 <= i < |tail| ensures tail[i].Visit? {
          assert tail[i] == entries[i + 1];
        }
      }
      WalkOnCompliantTree(fs, tail, holder, fix, year);
    }
  }

  /** Fixing is idempotent: once a fix-mode walk has finished without
      error, a second walk over the same entries, in either mode and in any
      later year, reports nothing and writes nothing. */
  lemma WalkFixIdempotent(fs: Fs, entries: seq<Entry>, holder: string, year: nat, fix2: bool, year2: nat)
    requires FixableSettings(year, holder)
    requires Walk(fs, entries, holder, true, year).err.None?
    ensures var r := Walk(fs, entries, holder, true, year);
      Walk(r.fs, entries, holder, fix2, year2) == WalkResult([], r.fs, None)
  {
    WalkFixMakesCompliant(fs, entries, holder, year);
    WalkWithoutErrorHadNoFailures(fs, entries, holder, true, year);
    var r := Walk(fs, entries, holder, true, year);
    WalkOnCompliantTree(r.fs, entries, holder, fix2, year2);
  }

  /** With an empty holder no file validates, so every readable checked
      file is reported. */
  lemma {:induction false} EmptyHolderFlagsEverything(fs: Fs, entries: seq<Entry>)
    requires CheckedReadable(fs, entries)
    ensures NonCompliantPaths(fs, entries, "") == CheckedPaths(entries)
    decreases |entries|
  {
    if entries != [] {
      var e := entries[0];
      if Checked(e) {
        assert Readable(fs, e.path);
        EmptyHolderNeverValid(fs.files[e.path], CommentPrefix(e.path));
      }
      assert CheckedReadable(fs, entries[1..]) by {
        forall i | 0 <= i < |entries[1..]| && Checked(entries[1..][i])
          ensures Readable(fs, entries[1..][i].path)
        {
          assert entries[1..][i] == entries[i + 1];
        }
      }
      EmptyHolderFlagsEverything(fs, entries[1..]);
    }
  }

  /** A check-only walk with an empty holder reports every source file. */
  lemma EmptyHolderReportsEverySourceFile(fs: Fs, entries: seq<Entry>, year: nat)
    requires NoFailures(entries) && CheckedReadable(fs, entries)
    ensures Walk(fs, entries, "", false, year) == WalkResult(CheckedPaths(entries), fs, None)
  {
    CheckOnlyReportsNonCompliant(fs, entries, "", year);
    EmptyHolderFlagsEverything(fs, entries);
  }

  /** Rewriting one file does not change the verdict on any other. */
  lemma VerdictFrame(fs: Fs, path: string, data: string, q: string, holder: string)
    requires q != path
    ensures HasValidHeader(fs.(files := fs.files[path := data]), q, holder) == HasValidHeader(fs, q, holder)
  {
    var fs' := fs.(files := fs.files[path := data]);
    assert Readable(fs', q) <==> Readable(fs, q);
    if Readable(fs, q) {
      assert fs'.files[q] == fs.files[q];
    }
  }

  /** No path is checked twice. */
  predicate DistinctChecked(entries: seq<Entry>) {
    forall i, j :: 0 <= i < j < |entries| && Checked(entries[i]) && Checked(entries[j]) ==>
      entries[i].path != entries[j].path
  }

  /** Every file walk would check can be written. */
  predicate CheckedWritable(fs: Fs, entries: seq<Entry>) {
    forall i :: 0 <= i < |entries| && Checked(entries[i]) ==> entries[i].path !in fs.unwritable
  }

  /** The reference list depends only on the verdicts for the checked
      paths. */
  lemma {:induction false} NonCompliantPathsAgree(fs1: Fs, fs2: Fs, entries: seq<Entry>, holder: string)
    requires forall i :: 0 <= i < |entries| && Checked(entries[i]) ==>
      HasValidHeader(fs1, entries[i].path, holder) == HasValidHeader(fs2, entries[i].path, holder)
    ensures NonCompliantPaths(fs1, entries, holder) == NonCompliantPaths(fs2, entries, holder)
    decreases |entries|
  {
    if entries != [] {
      var tail := entries[1..];
      forall i | 0 <= i < |tail| && Checked(tail[i])
        ensures HasValidHeader(fs1, tail[i].path, holder) == HasValidHeader(fs2, tail[i].path, holder)
      {
        assert tail[i] == entries[i + 1];
      }
      NonCompliantPathsAgree(fs1, fs2, tail, holder);
    }
  }

  /** Fix mode reports exactly what check-only mode would have reported on
      the tree as it was, provided no path is checked twice and every
      checked file can be read and written. */
  lemma {:induction false} FixReportsNonCompliant(fs: Fs, entries: seq<Entry>, holder: string, year: nat)
    requires NoFailures(entries) && DistinctChecked(entries)
    requires CheckedReadable(fs, entries) && CheckedWritable(fs, entries)
    ensures Walk(fs, entries, holder, true, year).changed == NonCompliantPaths(fs, entries, holder)
    ensures Walk(fs, entries, holder, true, year).err.None?
    decreases |entries|
  {
    if entries != [] {
      var e := entries[0];
      var tail := entries[1..];
      assert e.Visit? && (Checked(e) ==> Readable(fs, e.path) && e.path !in fs.unwritable);
      FixTail(fs, entries);
      var o := VisitEntry(fs, e, holder, true, year);
      assert o.err.None?;
      assert o.changed <==> Checked(e) && HasValidHeader(fs, e.path, holder) == Ok(false);
      VisitFrame(fs, e, holder, year, tail);
      FixReportsNonCompliant(o.fs, tail, holder, year);
      NonCompliantPathsAgree(o.fs, fs, tail, holder);
    }
  }

  /** The conditions of FixReportsNonCompliant pass from the entries to
      their tail, which holds no other copy of the first checked path. */
  lemma FixTail(fs: Fs, entries: seq<Entry>)
    requires entries != []
    requires NoFailures(entries) && DistinctChecked(entries)
    requires CheckedReadable(fs, entries) && CheckedWritable(fs, entries)
    ensures var tail := entries[1..];
      && NoFailures(tail) && DistinctChecked(tail)
      && CheckedReadable(fs, tail) && CheckedWritable(fs, tail)
      && forall i :: 0 <= i < |tail| && Checked(entries[0]) && Checked(tail[i]) ==> tail[i].path != entries[0].path
  {
    var tail := entries[1..];
    forall i | 0 <= i < |tail| ensures tail[i] == entries[i + 1] { }
  }

  /** A fix-mode callback on one entry leaves every later, distinct checked
      path as readable, writable and (non-)compliant as it was. */
  lemma VisitFrame(fs: Fs, e: Entry, holder: string, year: nat, tail: seq<Entry>)
    requires CheckedReadable(fs, tail) && CheckedWritable(fs, tail)
    requires forall i :: 0 <= i < |tail| && Checked(e) && Checked(tail[i]) ==> tail[i].path != e.path
    ensures var next := VisitEntry(fs, e, holder, true, year).fs;
      && CheckedReadable(next, tail) && CheckedWritable(next, tail)
      && forall i :: 0 <= i < |tail| && Checked(tail[i]) ==>
           HasValidHeader(next, tail[i].path, holder) == HasValidHeader(fs, tail[i].path, holder)
  {
    var next := VisitEntry(fs, e, holder, true, year).fs;
    forall i | 0 <= i < |tail| && Checked(tail[i])
      ensures Readable(next, tail[i].path) && tail[i].path !in next.unwritable
      ensures HasValidHeader(next, tail[i].path, holder) == HasValidHeader(fs, tail[i].path, holder)
    {
      if next != fs {
        assert Checked(e);
        VerdictFrame(fs, e.path, Prepended(ExpectedHeader(year, holder, e.path), fs.files[e.path]), tail[i].path, holder);
      }
    }
  }

  /** A worked example: fixing a Go file that holds only a package clause,
      for holder "Acme Corp" in 2025. */
  lemma AcmeExample(fs: Fs)
    requires fs.files == map["a.go" := "package main\n"] && fs.unreadable == {} && fs.unwritable == {}
    ensures var r := Walk(fs, [Visit("a.go", false)], "Acme Corp", true, 2025);
      && r.changed == ["a.go"] && r.err.None?
      && r.fs.files["a.go"] ==
           "// Copyright 2025 Acme Corp" + "\n" + "// SPDX-License-Identifier: Apache-2.0" + "\n\n" + "package main\n"
  {
    var header := ExpectedHeader(2025, "Acme Corp", "a.go");
    var e := Visit("a.go", false);
    AcmeHeader();
    AcmeProcess(fs, header);
    var o := VisitEntry(fs, e, "Acme Corp", true, 2025);
    assert o == Outcome(true, fs.(files := fs.files["a.go" := Prepended(header, "package main\n")]), None);
    WalkSingle(fs, e, "Acme Corp", true, 2025);
  }

  /** Walking a single entry is visiting it. */
  lemma WalkSingle(fs: Fs, e: Entry, holder: string, fix: bool, year: nat)
    ensures var o := VisitEntry(fs, e, holder, fix, year);
      Walk(fs, [e], holder, fix, year) ==
        WalkResult(if o.err.None? && o.changed then [e.path] else [], o.fs, o.err)
  {
    assert [e][1..] == [];
  }

  /** The step of the worked example: process rewrites the file. */
  lemma AcmeProcess(fs: Fs, header: string)
    requires fs.files == map["a.go" := "package main\n"] && fs.unreadable == {} && fs.unwritable == {}
    ensures Process(fs, "a.go", header, "Acme Corp", true) ==
      Outcome(true, fs.(files := fs.files["a.go" := Prepended(header, "package main\n")]), None)
  {
    ShortFileNotCompliant();
    assert Readable(fs, "a.go") && fs.files["a.go"] == "package main\n";
    FixWrites(fs, "a.go", header, "Acme Corp");
  }

  /** In fix mode a readable, writable, non-compliant file is rewritten and
      reported. */
  lemma FixWrites(fs: Fs, path: string, header: string, holder: string)
    requires Readable(fs, path) && path !in fs.unwritable
    requires !ValidHeaderContent(fs.files[path], CommentPrefix(path), holder)
    ensures Process(fs, path, header, holder, true) ==
      Outcome(true, fs.(files := fs.files[path := Prepended(header, fs.files[path])]), None)
  {
  }

  /** The header the walk builds for "a.go" in 2025 for "Acme Corp". */
  lemma AcmeHeader()
    ensures IsSourceFile("a.go")
    ensures ExpectedHeader(2025, "Acme Corp", "a.go") ==
      "// Copyright 2025 Acme Corp" + "\n" + "// SPDX-License-Identifier: Apache-2.0"
  {
    GoFile();
    Year2025();
    ShortHeaderJoin("2025", "Acme Corp", "//");
    AcmeCopyrightLine();
    AcmeSpdxLine();
  }

  /** "a.go" is checked and commented with "//". */
  lemma GoFile()
    ensures IsSourceFile("a.go") && CommentPrefix("a.go") == "//"
  {
    assert "a.go" == "a" + ".go";
    ExtOfSuffix("a", ".go");
  }

  /** fmt.Sprint(2025) */
  lemma Year2025()
    ensures DecimalString(2025) == "2025"
  {
    assert DecimalString(2) == "2";
    assert DecimalString(20) == "20";
    assert DecimalString(202) == "202";
  }

  /** The copyright line of the worked example, written out. */
  lemma AcmeCopyrightLine()
    ensures CopyrightLine("//", "2025", "Acme Corp") == "// Copyright 2025 Acme Corp"
  {
  }

  /** The SPDX line of the worked example, written out. */
  lemma AcmeSpdxLine()
    ensures SpdxLine("//") == "// SPDX-License-Identifier: Apache-2.0"
  {
  }

  /** "package main\n" is one line, so it cannot hold a header. */
  lemma ShortFileNotCompliant()
    ensures forall prefix, holder :: !ValidHeaderContent("package main\n", prefix, holder)
  {
    var line := "package main";
    var content := line + "\n";
    assert content == "package main\n";
    assert line[|line| - 1] == 'n';
    SplitTerminatedLine(line);
    forall prefix, holder ensures !ValidHeaderContent(content, prefix, holder) {
      FewLinesNeverValid(content, prefix, holder);
    }
  }
}

=== FILE: lines.dfy ===
/** The line splitting hasValidHeader performs with a bufio.Scanner and
    its default ScanLines split function. */
module Lines {

  /** ScanLines drops one carriage return at the end of each token. */
  function DropCR(s: string): (r: string)
    ensures s == [] || s[|s| - 1] != '\r' ==> r == s
    ensures s != [] && s[|s| - 1] == '\r' ==> s == r + ['\r']
  {
    if |s| > 0 && s[|s| - 1] == '\r' then s[..|s| - 1] else s
  }

  /** Index of the first newline in `s`, or |s| when there is none. */
  function LineEnd(s: string): (i: nat)
    ensures i <= |s|
    ensures i < |s| ==> s[i] == '\n'
    ensures '\n' !in s[..i]
  {
    if s == [] || s[0] == '\n' then 0 else 1 + LineEnd(s[1..])
  }

  /** The tokens a bufio.Scanner with ScanLines yields for `s`: one per
      newline-terminated line, plus the unterminated tail when it is not
      empty, each with a trailing carriage return removed. Token-size
      limits are not modelled. */
  function SplitLines(s: string): (lines: seq<string>)
    ensures forall k :: 0 <= k < |lines| ==> '\n' !in lines[k]
    ensures s == [] <==> lines == []
    decreases |s|
  {
    if s == [] then []
    else
      var i := LineEnd(s);
      var rest := if i == |s| then [] else SplitLines(s[i + 1..]);
      NoNewlineCons(DropCR(s[..i]), rest);
      [DropCR(s[..i])] + rest
  }

  /** A line without a newline in front of lines without newlines. */
  lemma NoNewlineCons(line: string, rest: seq<string>)
    requires '\n' !in line
    requires forall k :: 0 <= k < |rest| ==> '\n' !in rest[k]
    ensures forall k :: 0 <= k < |[line] + rest| ==> '\n' !in ([line] + rest)[k]
  {
  }

  /** A line that ScanLines gives back unchanged. */
  predicate PlainLine(line: string) {
    '\n' !in line && (line == [] || line[|line| - 1] != '\r')
  }

  /** Splitting a line off the front: the first token of `a + "\n" + b` is
      `a` (less a trailing carriage return), the rest are the tokens of `b`. */
  lemma SplitLinesCons(a: string, b: string)
    requires '\n' !in a
    ensures SplitLines(a + "\n" + b) == [DropCR(a)] + SplitLines(b)
  {
    var s := a + "\n" + b;
    var i := LineEnd(s);
    assert s[|a|] == '\n';
    assert i == |a|;
    assert s[..i] == a;
    assert s[i + 1..] == b;
  }

  /** A plain line is split off the front unchanged. */
  lemma SplitPlainCons(a: string, b: string)
    requires PlainLine(a)
    ensures SplitLines(a + "\n" + b) == [a] + SplitLines(b)
  {
    SplitLinesCons(a, b);
  }

  /** A single newline-terminated line is one token. */
  lemma SplitTerminatedLine(a: string)
    requires '\n' !in a
    ensures SplitLines(a + "\n") == [DropCR(a)]
  {
    SplitLinesCons(a, "");
    assert a + "\n" + "" == a + "\n";
    assert SplitLines("") == [];
  }

  /** A single non-empty line without a newline is one token. */
  lemma SplitUnterminatedLine(a: string)
    requires a != [] && '\n' !in a
    ensures SplitLines(a) == [DropCR(a)]
  {
    var i := LineEnd(a);
    assert i == |a|;
    assert a[..i] == a;
  }

  /** Joins lines, terminating each with a newline. */
  function JoinTerminated(lines: seq<string>): string {
    if lines == [] then [] else lines[0] + "\n" + JoinTerminated(lines[1..])
  }

  /** Re-associating a sequence split into its head and tail. */
  lemma ConsAppend<T>(xs: seq<T>, ys: seq<T>)
    requires xs != []
    ensures [xs[0]] + (xs[1..] + ys) == xs + ys
  {
    assert xs == [xs[0]] + xs[1..];
  }

  /** Splitting undoes joining for lines without newlines or trailing
      carriage returns, whatever follows them. */
  lemma {:induction false} SplitJoinRoundTrip(lines: seq<string>, rest: string)
    requires forall k :: 0 <= k < |lines| ==> PlainLine(lines[k])
    ensures SplitLines(JoinTerminated(lines) + rest) == lines + SplitLines(rest)
  {
    if lines != [] {
      var tail := JoinTerminated(lines[1..]);
      var s := JoinTerminated(lines) + rest;
      var t := lines[0] + "\n" + (tail + rest);
      assert s == t;
      var L := SplitLines(tail + rest);
      assert SplitLines(t) == [lines[0]] + L by {
        SplitPlainCons(lines[0], tail + rest);
      }
      assert L == lines[1..] + SplitLines(rest) by {
        SplitJoinRoundTrip(lines[1..], rest);
      }
      ConsAppend(lines, SplitLines(rest));
    } else {
      assert JoinTerminated(lines) + rest == rest;
    }
  }

  /** Dropping a carriage return from a line that starts with a non-empty
      text not ending in one only touches the part after that text. */
  lemma DropCRAfter(head: string, tail: string)
    requires head != [] && head[|head| - 1] != '\r'
    ensures DropCR(head + tail) == head + DropCR(tail)
  {
    if tail != [] && tail[|tail| - 1] == '\r' {
      assert (head + tail)[..|head + tail| - 1] == head + tail[..|tail| - 1];
    }
  }

  /** The carriage-return stripping ScanLines applies, line by line. */
  function DropCRs(lines: seq<string>): (r: seq<string>)
    ensures |r| == |lines|
    ensures forall k :: 0 <= k < |r| ==> r[k] == DropCR(lines[k])
  {
    if lines == [] then [] else [DropCR(lines[0])] + DropCRs(lines[1..])
  }

  /** Splitting joined lines without newlines gives them back, each less
      a trailing carriage return, whatever follows them. */
  lemma {:induction false} SplitJoinDropCR(lines: seq<string>, rest: string)
    requires forall k :: 0 <= k < |lines| ==> '\n' !in lines[k]
    ensures SplitLines(JoinTerminated(lines) + rest) == DropCRs(lines) + SplitLines(rest)
  {
    if lines != [] {
      var tail := JoinTerminated(lines[1..]);
      var s := JoinTerminated(lines) + rest;
      var t := lines[0] + "\n" + (tail + rest);
      assert s == t;
      var L := SplitLines(tail + rest);
      assert SplitLines(t) == [DropCR(lines[0])] + L by {
        SplitLinesCons(lines[0], tail + rest);
      }
      assert L == DropCRs(lines[1..]) + SplitLines(rest) by {
        SplitJoinDropCR(lines[1..], rest);
      }
      ConsAppend(DropCRs(lines), SplitLines(rest));
    } else {
      assert JoinTerminated(lines) + rest == rest;
    }
  }

  /** Three joined lines, written out. */
  lemma JoinThree(a: string, b: string, d: string)
    ensures JoinTerminated([a, b, d]) == a + "\n" + b + "\n" + d + "\n"
  {
    assert [a, b, d][1..] == [b, d];
    assert [b, d][1..] == [d];
    assert [d][1..] == [];
    assert JoinTerminated([d]) == d + "\n" + [];
    assert JoinTerminated([b, d]) == b + "\n" + (d + "\n");
    assert JoinTerminated([a, b, d]) == a + "\n" + (b + "\n" + (d + "\n"));
  }
}

=== FILE: text.dfy ===
/** String helpers the licenser relies on from Go's standard library:
    unicode.IsSpace / strings.TrimSpace and fmt's decimal rendering of an
    int.
    Strings are sequences of Unicode code points; Go's UTF-8 byte view is
    not modelled. */
module Text {

  datatype Option<T> = None | Some(value: T)

  // ---------------------------------------------------------------------
  // White space and trimming
  // ---------------------------------------------------------------------

  /** unicode.IsSpace: the Latin-1 spaces plus the other code points with
      the Unicode White_Space property. */
  predicate IsSpace(c: char) {
    || c == '\t' || c == '\n' || c == '\U{000B}' || c == '\U{000C}' || c == '\r' || c == ' '
    || c == '\U{0085}' || c == '\U{00A0}' || c == '\U{1680}'
    || ('\U{2000}' <= c <= '\U{200A}')
    || c == '\U{2028}' || c == '\U{2029}' || c == '\U{202F}' || c == '\U{205F}' || c == '\U{3000}'
  }

  predicate AllSpace(s: string) {
    forall k :: 0 <= k < |s| ==> IsSpace(s[k])
  }

  /** Removes leading white space: the result is the longest suffix of `s`
      that does not start with a space. */
  function TrimLeft(s: string): (r: string)
    ensures |r| <= |s| && r == s[|s| - |r|..]
    ensures r == [] || !IsSpace(r[0])
    ensures forall k :: 0 <= k < |s| - |r| ==> IsSpace(s[k])
  {
    if s == [] || !IsSpace(s[0]) then s else TrimLeft(s[1..])
  }

  /** Removes trailing white space: the result is the longest prefix of `s`
      that does not end with a space. */
  function TrimRight(s: string): (r: string)
    ensures |r| <= |s| && r == s[..|r|]
    ensures r == [] || !IsSpace(r[|r| - 1])
    ensures forall k :: |r| <= k < |s| ==> IsSpace(s[k])
  {
    if s == [] || !IsSpace(s[|s| - 1]) then s else TrimRight(s[..|s| - 1])
  }

  /** strings.TrimSpace */
  function TrimSpace(s: string): string {
    TrimRight(TrimLeft(s))
  }

  /** The licenser's test for a blank line, `strings.TrimSpace(line) == ""`,
      which holds exactly when every character is white space
      (TrimSpaceEmptyIffBlank). */
  predicate IsBlank(line: string) {
    AllSpace(line)
  }

  /** Trimming leaves nothing exactly when the line is all white space. */
  lemma TrimSpaceEmptyIffBlank(line: string)
    ensures TrimSpace(line) == [] <==> IsBlank(line)
  {
    var l := TrimLeft(line);
    if !AllSpace(line) {
      var k :| 0 <= k < |line| && !IsSpace(line[k]);
      assert l != [];
    }
  }

  // ---------------------------------------------------------------------
  // Decimal digits
  // ---------------------------------------------------------------------

  /** `\d` in Go's regexp syntax: an ASCII digit. */
  predicate IsDigit(c: char) {
    '0' <= c <= '9'
  }

  predicate AllDigits(s: string) {
    forall k :: 0 <= k < |s| ==> IsDigit(s[k])
  }

  function DigitChar(d: nat): (c: char)
    requires d < 10
    ensures IsDigit(c) && c as int - '0' as int == d
  {
    ('0' as int + d) as char
  }

  /** fmt.Sprint of a non-negative int. */
  function DecimalString(n: nat): (r: string)
    ensures r != [] && AllDigits(r)
    ensures |r| == 1 <==> n < 10
    decreases n
  {
    if n < 10 then [DigitChar(n)] else DecimalString(n / 10) + [DigitChar(n % 10)]
  }

  /** The value of a string of ASCII digits. */
  function DigitsValue(s: string): nat
    requires AllDigits(s)
  {
    if s == [] then 0 else DigitsValue(s[..|s| - 1]) * 10 + (s[|s| - 1] as int - '0' as int)
  }

  /** Reading back the decimal rendering of `n` gives `n`. */
  lemma {:induction false} DecimalRoundTrip(n: nat)
    ensures DigitsValue(DecimalString(n)) == n
  {
    var r := DecimalString(n);
    if n >= 10 {
      DecimalRoundTrip(n / 10);
      assert r[..|r| - 1] == DecimalString(n / 10);
    }
  }

  /** Years 1000 through 9999 render as exactly four digits. */
  lemma FourDigitDecimal(n: nat)
    requires 1000 <= n <= 9999
    ensures |DecimalString(n)| == 4
  {
    assert |DecimalString(n / 1000)| == 1;
    assert |DecimalString(n / 100)| == 2 by {
      assert (n / 100) / 10 == n / 1000;
    }
    assert |DecimalString(n / 10)| == 3 by {
      assert (n / 10) / 10 == n / 100;
    }
  }
}
